=== FILE: README.md ===
# emix ledger model

A Dafny model of the ledger core of emix, an Android app that tracks
customers who buy goods on instalments (EMI). The ledger has three Room
(SQLite) tables: customers, loans and payment transactions. Foreign keys
with cascading deletes link them. This model covers:

- the DAO operations and queries on those tables;
- settlement of one instalment in `CollectionRepositoryImpl.payInstallment`;
- backup snapshots and the delete-then-insert restore;
- the Room type converters;
- the input guards and state transitions of the view models and dialogs
  that feed the ledger.

The database is an immutable `Database.Store`. It holds one map per table,
keyed by primary key, plus the two AUTOINCREMENT counters that SQLite keeps
in `sqlite_sequence`. `Database.Valid` states the schema's guarantees:

- every row sits under its own key;
- ids are never 0 and no larger than their counter, and generated ids are positive;
- every loan has its customer and every transaction has its loan.

Writes are pure functions from store to store, or to a `Result` when a
foreign key can fail. The model includes the less obvious SQLite and Room
behaviour:

- an `id = 0` insert takes counter + 1;
- REPLACE deletes the old row first, so the cascade fires;
- `SUM` and `MIN` over no rows give NULL;
- NULL sorts lowest;
- BINARY collation compares code points;
- `LIKE` folds ASCII case only, and `%` and `_` are wildcards.

A plain `SELECT` has no defined order. Listings are therefore stated with
`Collections.IsListing`: every row of the table exactly once, in some
order. An `ORDER BY` adds `Sorting.SortedBy`. Amounts are `real` and
timestamps are `int` milliseconds.

The model follows the code as written, including behaviour a reader might not expect:

- A payment always moves the due date by 7 days, MONTHLY loans included.
- A payment has no lower bound: zero and negative amounts pass, a negative
  amount raises the balance, and a closed loan reopens.
- The loan update and the transaction insert are two separate writes.
  `CollectionRepository.UpdateSettledLoan` is the state between them.
- The URGENT ordering puts customers with no open loans first, because
  their earliest due date is NULL.
- `addLoan` does not check the down payment against the price.
- Saving a customer with an existing id through the REPLACE insert deletes
  that customer's loans and payments.

## Model

| member | source | states |
|---|---|---|
| Converters.DateToTimestamp | app/src/main/java/com/emicollect/app/data/local/Converters.kt:13-16 | null maps to null, and a date maps to its millisecond time |
| Converters.DateRoundTrip | app/src/main/java/com/emicollect/app/data/local/Converters.kt:8-16 | reading back a stored timestamp gives the date that was written, null included |
| Converters.FromTimestamp | app/src/main/java/com/emicollect/app/data/local/Converters.kt:8-16 | null maps to null, and converting back to a timestamp gives the original value |
| Converters.EmiFrequencyToString | app/src/main/java/com/emicollect/app/data/local/Converters.kt:23-26 | null maps to null, WEEKLY to "WEEKLY" and MONTHLY to "MONTHLY" |
| Converters.FromEmiFrequency | app/src/main/java/com/emicollect/app/data/local/Converters.kt:18-21 | null maps to null; "WEEKLY" gives WEEKLY and "MONTHLY" gives MONTHLY; any other string fails with the `valueOf` "No enum constant" error naming it; a converted value maps back to the same string |
| Converters.FrequencyRoundTrip | app/src/main/java/com/emicollect/app/data/local/Converters.kt:18-26 | converting a frequency to its name and back gives the same frequency |
| LoanDao.InsertLoan | app/src/main/java/com/emicollect/app/data/local/dao/LoanDao.kt:14-15 | fails with a foreign-key error exactly when the customer is missing; otherwise the loan is stored under its assigned id, replacing any old row and cascading away the old row's transactions; a requested id of 0 gets a fresh positive id; the loan counter moves up to the stored id and the customer counter is unchanged; the schema invariant is kept |
| LoanDao.UpdateLoan | app/src/main/java/com/emicollect/app/data/local/dao/LoanDao.kt:17-18 | a loan whose id is not stored changes nothing; otherwise the row is overwritten, which fails with the foreign-key error exactly when the new customer is missing; the other tables and both counters are unchanged; the invariant is kept |
| LoanDao.DeleteLoan | app/src/main/java/com/emicollect/app/data/local/dao/LoanDao.kt:20-21 | removes exactly that loan and, by cascade, exactly its transactions; every other loan and transaction keeps its value, customers and the id counters are unchanged, and the invariant holds |
| LoanDao.DeleteAll | app/src/main/java/com/emicollect/app/data/local/dao/LoanDao.kt:23-24 | the loan table is empty; on a consistent store the cascade empties the transaction table too; customers and the id counters are kept |
| LoanDao.DeletedIdIsNotReused | app/src/main/java/com/emicollect/app/data/local/dao/LoanDao.kt:14-21 | after a loan is deleted, a loan inserted with a generated id gets an id above the deleted one, because the counters survive the delete |
| LoanDao.GetLoansForCustomer | app/src/main/java/com/emicollect/app/data/local/dao/LoanDao.kt:26-27 | lists each of the customer's loans exactly once, open or closed, and no other loan |
| LoanDao.CountOverdueLoans | app/src/main/java/com/emicollect/app/data/local/dao/LoanDao.kt:29-30 | is exactly the number of loans that are open and due at or before the timestamp, so it lies between 0 and the number of loans and is 0 exactly when every loan is closed or due later |
| LoanDao.OverdueCountGrowsWithTime | app/src/main/java/com/emicollect/app/data/local/dao/LoanDao.kt:29-30 | since the bound is inclusive, a later timestamp never counts fewer overdue loans |
| LoanDao.GetAllLoans | app/src/main/java/com/emicollect/app/data/local/dao/LoanDao.kt:32-33 | lists every stored loan exactly once |
| LoanDao.GetLoanById | app/src/main/java/com/emicollect/app/data/local/dao/LoanDao.kt:35-36 | returns the stored loan with that id, or nothing when no loan has it |
| TransactionDao.InsertTransaction | app/src/main/java/com/emicollect/app/data/local/dao/TransactionDao.kt:13-14 | fails with a foreign-key error exactly when the loan is missing; otherwise the row is stored under its UUID, replacing any row with that UUID; nothing else changes |
| TransactionDao.DeleteTransaction | app/src/main/java/com/emicollect/app/data/local/dao/TransactionDao.kt:16-17 | removes exactly that UUID's row; every other transaction keeps its value, customers, loans and the id counters are unchanged, and the invariant holds |
| TransactionDao.DeleteAll | app/src/main/java/com/emicollect/app/data/local/dao/TransactionDao.kt:19-20 | the transaction table is empty; the other tables and the id counters are unchanged |
| TransactionDao.GetTransactionsForLoan | app/src/main/java/com/emicollect/app/data/local/dao/TransactionDao.kt:22-23 | lists each of the loan's payments exactly once, only that loan's, newest first |
| TransactionDao.GetTotalCollectionBetween | app/src/main/java/com/emicollect/app/data/local/dao/TransactionDao.kt:25-26 | is NULL exactly when no payment falls in the inclusive range, so always NULL for an empty range; otherwise it is the sum of the amounts paid in that range |
| TransactionDao.CollectionRangesAdd | app/src/main/java/com/emicollect/app/data/local/dao/TransactionDao.kt:25-26 | once NULL reads as 0, the total over a range is the sum of the totals over two adjacent sub-ranges |
| TransactionDao.GetAllTransactions | app/src/main/java/com/emicollect/app/data/local/dao/TransactionDao.kt:28-29 | lists every stored transaction exactly once |
| TransactionDao.GetTotalCollection | app/src/main/java/com/emicollect/app/data/local/dao/TransactionDao.kt:31-32 | is NULL exactly when there are no transactions, and otherwise the sum of every amount paid |
| CustomerDao.InsertCustomer | app/src/main/java/com/emicollect/app/data/local/dao/CustomerDao.kt:15-16 | stores the customer under its assigned id, and an id of 0 gets a fresh positive one; replacing an existing customer cascades away its loans and, on a consistent store, exactly those loans' transactions; every remaining loan and transaction keeps its value; the customer counter moves up to the stored id and the loan counter is unchanged; the invariant is kept |
| CustomerDao.ReplaceCustomer | app/src/main/java/com/emicollect/app/data/local/dao/CustomerDao.kt:15-16 | the REPLACE step for a given id: the row is stored; when the id was new nothing else changes, otherwise exactly the old row's loans go and, on a consistent store, exactly their transactions; surviving rows keep their values |
| CustomerDao.UpdateCustomer | app/src/main/java/com/emicollect/app/data/local/dao/CustomerDao.kt:18-19 | overwrites the customer when its id is stored, and otherwise changes nothing; loans, transactions and both counters are unchanged |
| CustomerDao.DeleteCustomer | app/src/main/java/com/emicollect/app/data/local/dao/CustomerDao.kt:21-22 | removes the customer and exactly its loans; on a consistent store exactly the transactions of the remaining loans stay; every remaining row keeps its value, the id counters are unchanged, and the invariant holds |
| CustomerDao.DeleteAll | app/src/main/java/com/emicollect/app/data/local/dao/CustomerDao.kt:24-25 | the customer table is empty; on a consistent store the cascades empty the loans and transactions too; the id counters are unchanged |
| CustomerDao.InsertFreshCustomer | app/src/main/java/com/emicollect/app/data/local/dao/CustomerDao.kt:15-16 | on a consistent store a customer with id 0 is stored under a new key one past the counter, and every other row stays |
| CustomerDao.GetCustomerById | app/src/main/java/com/emicollect/app/data/local/dao/CustomerDao.kt:27-28 | returns the stored customer with that id, or nothing when no customer has it |
| CustomerDao.GetAllCustomers | app/src/main/java/com/emicollect/app/data/local/dao/CustomerDao.kt:30-31 | lists every stored customer exactly once |
| CustomerDao.StatusOf | app/src/main/java/com/emicollect/app/data/local/dao/CustomerDao.kt:33-39 | the LEFT JOIN aggregate over the customer's open loans: the earliest due date is the smallest due date of those loans and is NULL when there are none; the debt is the sum of their balances, NULL when there are none unless the query coalesces it to 0.0 |
| CustomerDao.GetCustomersSortedByUrgency | app/src/main/java/com/emicollect/app/data/local/dao/CustomerDao.kt:33-42 | lists every customer exactly once with debt and due date uncoalesced, ordered by earliest due date ascending with NULL first, then by debt descending |
| CustomerDao.UrgencyIsPreorder | app/src/main/java/com/emicollect/app/data/local/dao/CustomerDao.kt:40 | the urgency ORDER BY is a total preorder, so sorting by it is well defined up to ties |
| CustomerDao.NoOpenLoansComeFirst | app/src/main/java/com/emicollect/app/data/local/dao/CustomerDao.kt:38-40 | in the URGENT list, every customer with no open loan comes before every customer with one |
| CustomerDao.UrgencyDueDatesAscend | app/src/main/java/com/emicollect/app/data/local/dao/CustomerDao.kt:40 | after a customer with a due date, every later customer also has one, and it is no earlier |
| CustomerDao.UrgencyTiesByDebt | app/src/main/java/com/emicollect/app/data/local/dao/CustomerDao.kt:40 | customers with equal earliest due dates are ordered by debt descending, with NULL debt last |
| CustomerDao.GetCustomersSortedByDebt | app/src/main/java/com/emicollect/app/data/local/dao/CustomerDao.kt:44-53 | lists every customer exactly once; the coalesced debt is never NULL and never increases down the list |
| CustomerDao.GetCustomersSortedByName | app/src/main/java/com/emicollect/app/data/local/dao/CustomerDao.kt:55-64 | lists every customer exactly once with uncoalesced aggregates, with names non-decreasing under the BINARY collation |
| CustomerDao.NameIsPreorder | app/src/main/java/com/emicollect/app/data/local/dao/CustomerDao.kt:62 | BINARY name order is a total preorder |
| CustomerDao.SearchCustomers | app/src/main/java/com/emicollect/app/data/local/dao/CustomerDao.kt:66-76 | lists exactly once each customer whose name or phone matches the LIKE pattern `%q%`, and no other; debts are coalesced; names are non-decreasing |
| CustomerDao.SearchFindsSubstrings | app/src/main/java/com/emicollect/app/data/local/dao/CustomerDao.kt:72 | for a query without wildcards, a customer is found exactly when the query occurs in the name or the phone, ignoring ASCII case |
| CustomerDao.EmptySearchListsEveryone | app/src/main/java/com/emicollect/app/data/local/dao/CustomerDao.kt:72 | the empty query lists every customer exactly once |
| SqliteText.UnderscoreQueryMatchesNonEmpty | app/src/main/java/com/emicollect/app/data/local/dao/CustomerDao.kt:72 | `_` in a query is a wildcard: the query `_` matches every non-empty name and no empty one |
| CustomerDao.ListsEveryCustomerOnce | app/src/main/java/com/emicollect/app/data/local/dao/CustomerDao.kt:37-39 | a listing of the aggregate table holds each stored customer's row, unchanged, and no customer twice |
| CustomerDao.GetCustomerWithLoans | app/src/main/java/com/emicollect/app/data/local/dao/CustomerDao.kt:78-80 | present exactly when the customer exists, with that customer and a listing of all of its loans |
| CollectionRepository.GetCustomersSorted | app/src/main/java/com/emicollect/app/data/repository/CollectionRepositoryImpl.kt:29-35 | each sort option lists every customer exactly once, with the aggregates of its query, in that query's order |
| CollectionRepository.Settle | app/src/main/java/com/emicollect/app/data/repository/CollectionRepositoryImpl.kt:54-68 | the balance drops by exactly the amount; the loan is closed exactly when the new balance is at most 0; an open loan's due date moves by 604800000 ms whatever its frequency, and a closed loan's does not move; no other field changes |
| CollectionRepository.UpdateSettledLoan | app/src/main/java/com/emicollect/app/data/repository/CollectionRepositoryImpl.kt:47-70 | the first write: an unknown loan fails with "Loan not found" and an amount above the balance with "Amount exceeds current balance"; on a consistent store every other amount succeeds; only the settled loan changes, and transactions do not |
| CollectionRepository.PayInstallment | app/src/main/java/com/emicollect/app/data/repository/CollectionRepositoryImpl.kt:47-78 | the two errors as above, raised before any write; on a consistent store it succeeds exactly when the loan exists and the amount is at most its balance; the loan table changes only at the settled loan; customers are unchanged; the invariant is kept |
| CollectionRepository.PaymentAddsOneTransaction | app/src/main/java/com/emicollect/app/data/repository/CollectionRepositoryImpl.kt:72-77 | with a fresh UUID, exactly one transaction is added, carrying the loan id, the amount and the current time, and every old transaction is kept |
| CollectionRepository.SettledBeforeRecorded | app/src/main/java/com/emicollect/app/data/repository/CollectionRepositoryImpl.kt:70-77 | after the first write, the loan is settled while the transaction table is still unchanged |
| CollectionRepository.HalfDonePaymentUnbalances | app/src/main/java/com/emicollect/app/data/repository/CollectionRepositoryImpl.kt:70-77 | if principal equals down payment plus payments plus balance before a non-zero payment, that equation is broken between the two writes |
| CollectionRepository.PaymentKeepsLedgerBalanced | app/src/main/java/com/emicollect/app/data/repository/CollectionRepositoryImpl.kt:47-78 | after both writes, principal equals down payment plus payments plus balance again |
| CollectionRepository.NegativeAmountRaisesBalance | app/src/main/java/com/emicollect/app/data/repository/CollectionRepositoryImpl.kt:50-55 | only the upper bound is checked, so a negative amount succeeds and raises the balance |
| CollectionRepository.ClosedLoanReopens | app/src/main/java/com/emicollect/app/data/repository/CollectionRepositoryImpl.kt:50-62 | a closed loan is not rejected: a payment below its balance reopens it and moves its due date a week on |
| CollectionRepository.GetCollectedToday | app/src/main/java/com/emicollect/app/data/repository/CollectionRepositoryImpl.kt:85-98 | the sum of the day's payments, with NULL read as 0.0 when there are none |
| CollectionRepository.GetTotalCollection | app/src/main/java/com/emicollect/app/data/repository/CollectionRepositoryImpl.kt:101 | the sum of every payment, with NULL read as 0.0 when there are none |
| CollectionRepository.PaymentGrowsTotalCollection | app/src/main/java/com/emicollect/app/data/repository/CollectionRepositoryImpl.kt:72-77 | a payment with a fresh UUID raises the total collected by exactly its amount |
| CollectionRepository.PaymentCountsToday | app/src/main/java/com/emicollect/app/data/repository/CollectionRepositoryImpl.kt:72-77 | a payment made within the day raises the day's total by exactly its amount |
| CollectionRepository.PaymentDoesNotAddOverdue | app/src/main/java/com/emicollect/app/data/repository/CollectionRepositoryImpl.kt:54-62 | paying an open loan never increases the overdue count at any timestamp |
| BackupRepository.CreateBackup | app/src/main/java/com/emicollect/app/data/repository/BackupRepository.kt:18-31 | the snapshot lists every customer, loan and transaction exactly once, stamped with the current time |
| BackupRepository.ClearTables | app/src/main/java/com/emicollect/app/data/repository/BackupRepository.kt:38-40 | all three tables are empty and the AUTOINCREMENT counters are kept |
| BackupRepository.InsertCustomers | app/src/main/java/com/emicollect/app/data/repository/BackupRepository.kt:42 | inserting the snapshot's customers one by one leaves the loan counter unchanged |
| BackupRepository.InsertCustomersIntoEmpty | app/src/main/java/com/emicollect/app/data/repository/BackupRepository.kt:42 | into empty tables, customers with explicit ids land keyed by id with later duplicates winning, the other tables stay empty, and the counter rises to the largest id |
| BackupRepository.InsertCustomersKeepsKeys | app/src/main/java/com/emicollect/app/data/repository/BackupRepository.kt:42 | the customer inserts never remove a key: old ids and every explicit id in the list are present afterwards |
| BackupRepository.InsertCustomersValid | app/src/main/java/com/emicollect/app/data/repository/BackupRepository.kt:42 | the customer inserts keep the schema invariant |
| BackupRepository.InsertLoans | app/src/main/java/com/emicollect/app/data/repository/BackupRepository.kt:43 | the loan inserts fail only with the foreign-key error and leave customers and the customer counter unchanged |
| BackupRepository.InsertLoansIntoEmpty | app/src/main/java/com/emicollect/app/data/repository/BackupRepository.kt:43 | into empty loan and transaction tables, loans with explicit ids land keyed by id with later duplicates winning, no transaction appears, and the counter rises to the largest id |
| BackupRepository.InsertLoansValid | app/src/main/java/com/emicollect/app/data/repository/BackupRepository.kt:43 | the loan inserts keep the schema invariant when they succeed |
| BackupRepository.InsertLoansSucceeds | app/src/main/java/com/emicollect/app/data/repository/BackupRepository.kt:43 | inserting the snapshot's loans succeeds exactly when each loan's customer is present |
| BackupRepository.InsertTransactionsSucceeds | app/src/main/java/com/emicollect/app/data/repository/BackupRepository.kt:44 | inserting the snapshot's transactions succeeds exactly when each one's loan is present |
| BackupRepository.InsertTransactions | app/src/main/java/com/emicollect/app/data/repository/BackupRepository.kt:44 | the transaction inserts fail only with the foreign-key error and leave customers, loans and both counters unchanged |
| BackupRepository.InsertTransactionsIntoEmpty | app/src/main/java/com/emicollect/app/data/repository/BackupRepository.kt:44 | into an empty transaction table the transactions land keyed by UUID, later duplicates winning |
| BackupRepository.InsertTransactionsValid | app/src/main/java/com/emicollect/app/data/repository/BackupRepository.kt:44 | the transaction inserts keep the schema invariant when they succeed |
| BackupRepository.RestoreInTransaction | app/src/main/java/com/emicollect/app/data/repository/BackupRepository.kt:37-45 | a null customer or loan list fails with the null-dereference error and a null transaction list fails too; the only errors are that one and a foreign-key failure, and any error rolls everything back |
| BackupRepository.RestoreResult | app/src/main/java/com/emicollect/app/data/repository/BackupRepository.kt:37-45 | for snapshot rows with explicit ids, the restore commits exactly when every loan's customer and every transaction's loan is in the snapshot; each table then equals the snapshot's rows keyed by id, a later duplicate winning |
| BackupRepository.RestoreKeepsValid | app/src/main/java/com/emicollect/app/data/repository/BackupRepository.kt:37-45 | a committed restore keeps the schema invariant |
| BackupRepository.RestoreBackup | app/src/main/java/com/emicollect/app/data/repository/BackupRepository.kt:33-46 | a parse error is raised before the transaction and leaves the store untouched; a null document fails inside it; otherwise it is the transactional restore |
| BackupRepository.RestoreIsIdempotent | app/src/main/java/com/emicollect/app/data/repository/BackupRepository.kt:38-44 | restoring a snapshot with explicit ids twice gives the same store as restoring it once |
| BackupRepository.RestoreOwnBackup | app/src/main/java/com/emicollect/app/data/repository/BackupRepository.kt:18-46 | restoring a freshly created backup gives back exactly the same store |
| BackupRepository.OrphanLoanFailsRestore | app/src/main/java/com/emicollect/app/data/repository/BackupRepository.kt:42-43 | a snapshot loan whose customer is not in the snapshot makes the restore fail and roll back |
| BackupRepository.OrphanTransactionFailsRestore | app/src/main/java/com/emicollect/app/data/repository/BackupRepository.kt:43-44 | a snapshot transaction whose loan is not in the snapshot makes the restore fail and roll back |
| BackupRepository.GeneratedIdSnapshotIsNotIdempotent | app/src/main/java/com/emicollect/app/data/repository/BackupRepository.kt:38-42 | a snapshot customer with id 0 gets a new id on every restore, because clearing the tables does not reset the counter, so restoring it twice differs from restoring it once |
| SmartPaymentDialog.InitialAmount | app/src/main/java/com/emicollect/app/ui/components/SmartPaymentDialog.kt:27 | the field starts at the default amount when that is positive, and empty otherwise |
| SmartPaymentDialog.FormatWhole | app/src/main/java/com/emicollect/app/ui/components/SmartPaymentDialog.kt:61 | `%.0f` gives a whole number within one half of its argument, rounding halves away from zero |
| SmartPaymentDialog.Decrease | app/src/main/java/com/emicollect/app/ui/components/SmartPaymentDialog.kt:58-61 | unparsable text counts as 0; the result is a whole, non-negative number; it is 0 when the step goes to 0 or below, and otherwise within one half of the current amount minus the default |
| SmartPaymentDialog.Increase | app/src/main/java/com/emicollect/app/ui/components/SmartPaymentDialog.kt:86-90 | the current amount plus the default, or plus 500 when the default is not positive, rounded to a whole number with halves rounded away from zero as `%.0f` does |
| SmartPaymentDialog.Confirm | app/src/main/java/com/emicollect/app/ui/components/SmartPaymentDialog.kt:117-121 | hands on an amount exactly when the text parses to a positive number, without comparing it with the balance |
| SmartPaymentDialog.DecreaseToZeroCannotConfirm | app/src/main/java/com/emicollect/app/ui/components/SmartPaymentDialog.kt:58-61 | a decrease that leaves less than one half cannot be confirmed |
| SmartPaymentDialog.IncreaseFromStartConfirms | app/src/main/java/com/emicollect/app/ui/components/SmartPaymentDialog.kt:27-90 | one increase from the initial field gives an amount that can be confirmed |
| AddLoanDialog.Confirm | app/src/main/java/com/emicollect/app/ui/components/AddLoanDialog.kt:88-94 | fires exactly when the item name is not blank and the price parses to a positive number; an unparsable down payment becomes 0.0 |
| AddLoanDialog.AnyDownPaymentPasses | app/src/main/java/com/emicollect/app/ui/components/AddLoanDialog.kt:90-91 | neither the sign of the down payment nor its relation to the price is checked |
| CustomerDetailViewModel.ClearSnackbar | app/src/main/java/com/emicollect/app/ui/details/CustomerDetailViewModel.kt:64-66 | the message becomes null and nothing else changes |
| CustomerDetailViewModel.AddLoan | app/src/main/java/com/emicollect/app/ui/details/CustomerDetailViewModel.kt:68-81 | fails exactly when the customer is missing; otherwise it stores a new open WEEKLY loan owing price minus down payment, first due 604800000 ms from now; customers are unchanged, and on a consistent store the id is fresh, every old loan and every transaction is kept, and the invariant holds |
| CustomerDetailViewModel.OverpaidLoanStaysOpen | app/src/main/java/com/emicollect/app/ui/details/CustomerDetailViewModel.kt:75 | a down payment above the price stores an open loan with a negative balance |
| CustomerDetailViewModel.ConfirmAddLoan | app/src/main/java/com/emicollect/app/ui/details/CustomerDetailScreen.kt:57-64 | the dialog adds a loan exactly when its guard passes, with a positive principal and a balance of price minus down payment |
| CustomerDetailViewModel.ProcessPayment | app/src/main/java/com/emicollect/app/ui/details/CustomerDetailViewModel.kt:83-101 | stores the settlement when it goes through; shows "Payment successful" then unless a later step (preference read, loan read, receipt send) raises, in which case that exception's message or "Payment failed" replaces it; a failed settlement shows its message; a receipt of customer name, amount and item name is sent exactly when the payment succeeded, nothing raised later, WhatsApp is on, and both the loan and the customer are present; nothing else in the state changes |
| CustomerDetailViewModel.SuccessMessageMeansPaid | app/src/main/java/com/emicollect/app/ui/details/CustomerDetailViewModel.kt:85-98 | the success message appears only when the payment went through, and, when no later step raises, always does then |
| CustomerDetailViewModel.LateFaultHidesPayment | app/src/main/java/com/emicollect/app/ui/details/CustomerDetailViewModel.kt:85-98 | an exception without a message raised after the payment is stored shows "Payment failed" and sends no receipt, while the store keeps the payment |
| CustomerDetailViewModel.PaidAmountsAreInRange | app/src/main/java/com/emicollect/app/ui/details/CustomerDetailScreen.kt:68-76 | the dialog guard and the settlement check together let through only amounts above 0 and at most the balance |
| CustomerDetailViewModel.InRangeAmountsArePaid | app/src/main/java/com/emicollect/app/ui/details/CustomerDetailScreen.kt:68-76 | on a consistent store every amount above 0 and at most the balance passes both checks |
| AddCustomerViewModel.OnNameChange | app/src/main/java/com/emicollect/app/ui/addcustomer/AddCustomerViewModel.kt:33-35 | sets the name and clears the error, nothing else |
| AddCustomerViewModel.OnPhoneChange | app/src/main/java/com/emicollect/app/ui/addcustomer/AddCustomerViewModel.kt:37-39 | sets the phone and clears the error, nothing else |
| AddCustomerViewModel.OnAddressChange | app/src/main/java/com/emicollect/app/ui/addcustomer/AddCustomerViewModel.kt:41-43 | sets the address and clears the error, nothing else |
| AddCustomerViewModel.OnFrequencyChange | app/src/main/java/com/emicollect/app/ui/addcustomer/AddCustomerViewModel.kt:45-47 | sets the frequency and clears the error, nothing else |
| AddCustomerViewModel.SaveCustomer | app/src/main/java/com/emicollect/app/ui/addcustomer/AddCustomerViewModel.kt:49-81 | a blank name gives "Name cannot be empty", then a blank phone gives "Phone cannot be empty", and both save nothing; the address is not checked; a save stores the form's customer under a fresh id, and a failed write shows "Failed to save customer: " plus the message; loading ends either way; the form's fields are unchanged |
| AddCustomerViewModel.SaveAddsOneCustomer | app/src/main/java/com/emicollect/app/ui/addcustomer/AddCustomerViewModel.kt:65-73 | on a consistent store a save adds exactly one new customer id and keeps every other row |
| AddCustomerViewModel.SpacesAreNotAName | app/src/main/java/com/emicollect/app/ui/addcustomer/AddCustomerViewModel.kt:53-56 | a name of spaces only is blank, so it is refused like an empty one |
| HomeViewModel.UpdateSortOption | app/src/main/java/com/emicollect/app/ui/home/HomeViewModel.kt:164-166 | changes only the sort option |
| HomeViewModel.OnSearchQueryChange | app/src/main/java/com/emicollect/app/ui/home/HomeViewModel.kt:168-171 | sets the visible query and the search flow to the same text and changes nothing else |
| HomeViewModel.ToggleSearch | app/src/main/java/com/emicollect/app/ui/home/HomeViewModel.kt:173-182 | flips whether search is active; closing search clears the query and the flow, and opening it keeps them; nothing else changes |
| HomeViewModel.ToggleTwiceClearsSearch | app/src/main/java/com/emicollect/app/ui/home/HomeViewModel.kt:173-182 | toggling twice restores the state except that the query is cleared |
| HomeViewModel.CustomerList | app/src/main/java/com/emicollect/app/ui/home/HomeViewModel.kt:142-148 | a blank query, whitespace included, lists every customer in the chosen sort order; any other query lists exactly the matching customers in name order |
| HomeViewModel.Refresh | app/src/main/java/com/emicollect/app/ui/home/HomeViewModel.kt:142-162 | after the collectors run, the screen shows the list for the current flow and sort option and the day's collection, and is no longer loading |
| HomeViewModel.InitialHomeShowsUrgentList | app/src/main/java/com/emicollect/app/ui/home/HomeViewModel.kt:16-23 | a fresh screen starts with URGENT order, an empty query and search closed, and once loaded lists every customer in URGENT order |
| HomeViewModel.ClosingSearchListsEveryone | app/src/main/java/com/emicollect/app/ui/home/HomeViewModel.kt:173-182 | closing search brings back every customer in the chosen sort order |
| HomeViewModel.SpacesKeepTheSortedList | app/src/main/java/com/emicollect/app/ui/home/HomeViewModel.kt:144 | a query of spaces is blank and selects the sorted list, not a search |
| HomeViewModel.SortChoiceDoesNotAffectSearch | app/src/main/java/com/emicollect/app/ui/home/HomeViewModel.kt:142-148 | while a query is set, changing the sort option does not change the list |

## Left out

- Integer width: ids and timestamps are unbounded integers, so Long overflow is not modelled. The weekly step 7·24·60·60·1000 = 604800000 fits in a 32-bit Int, so the Int product in the source does not overflow.
- Floating point: amounts are exact reals. In the source, repeated Double subtraction can leave a tiny residue, so `newBalance <= 0.0` may differ from exact arithmetic. `%.0f` is modelled as exact half-up rounding, independent of locale.
- JSON: Gson encoding and decoding is a foreign library. Parsing is an input: a parse error, a null document, or a document whose lists may each be null. Encoding followed by decoding is taken to be the identity. Null fields inside individual records are not modelled.
- Coroutines, Flow, StateFlow, `debounce` and `flatMapLatest`: every query is a function of the current store. `Refresh` is the screen after the collectors have delivered. Only the net effect of the nested update in `toggleSearch` is modelled, not the compare-and-set retry.
- Concurrency: there is a single writer. The read-then-write race in `payInstallment`, between reading the loan and updating it, is not modelled.
- Clock, randomness and preferences are parameters: the current time, the fresh UUID of a payment, the calendar bounds of today, the default collection amount and the WhatsApp switch.
- Calendar: how `getCollectedToday` computes start and end of day (time zone, and an end of day that keeps millisecond 0 rather than 999) is left out. The bounds are inputs.
- Scan order: an unordered `SELECT` and ties in an `ORDER BY` come back in an order the model does not fix.
- The sort-option enum's own source file is not part of this model. `SortOption` is modelled from its uses.
- UI rendering, the receipt bitmap, sharing intents, file and Drive I/O, and backup orchestration in the home view model are out of scope.
- `SaveCustomer`: a failure of the database write is a parameter, because nothing in the modelled store makes the insert fail.
- `ProcessPayment`: the receipt is a returned value rather than an event on a channel. An exception from the steps after the payment is stored (the preference read, the loan read, the send) is the parameter `lateFault`, because those calls are not modelled. A fault raised by the send after the receipt went out is treated like one raised before it.
- `AddLoan`: the source launches the insert without a try block, so a foreign-key failure escapes as an uncaught exception. The model returns it as a failure.
- CollectionRepository.PayInstallment: the exact shape of the loan table after success, and the "succeeds only if" direction, are stated only for a store that satisfies the schema invariant, as every store reachable through the DAO does.
- CollectionRepository.UpdateSettledLoan: the same restriction to stores that satisfy the schema invariant.
- SmartPaymentDialog.IncreaseFromStartConfirms: stated only for a default amount that is not positive or is at least 0.25. A smaller positive default doubles to less than one half and `%.0f` rounds it to 0.
- BackupRepository.RestoreIsIdempotent: stated for snapshots whose rows carry explicit ids. Rows with id 0 are not idempotent; see GeneratedIdSnapshotIsNotIdempotent.
- BackupRepository.RestoreResult: stated for snapshots whose rows carry explicit ids; ids of 0 draw fresh ids from the counters.

=== FILE: add_customer_view_model.dfy ===
/**
 * `AddCustomerViewModel`: the form state, its field setters and the
 * validation in `saveCustomer`. A failure of the database write itself is
 * a parameter, since nothing in the modelled store makes the insert fail.
 */
module AddCustomerViewModel {
  import opened Wrappers
  import opened Entities
  import opened KotlinText
  import opened Database
  import CustomerDao

  datatype AddCustomerUiState = AddCustomerUiState(
    name: string,
    phone: string,
    address: string,
    frequency: string,
    isLoading: bool,
    error: Option<string>,
    isSaved: bool)

  /** An empty form with frequency "Weekly". */
  const InitialState: AddCustomerUiState := AddCustomerUiState("", "", "", DefaultCustomerFrequency, false, None, false)

  const NameRequired: string := "Name cannot be empty"
  const PhoneRequired: string := "Phone cannot be empty"
  const SaveFailedPrefix: string := "Failed to save customer: "

  /** Each setter writes its own field and clears the error; nothing else changes. */
  function OnNameChange(st: AddCustomerUiState, name: string): (r: AddCustomerUiState)
    ensures r.name == name && r.error.None?
    ensures r.(name := st.name, error := st.error) == st
  {
    st.(name := name, error := None)
  }

  function OnPhoneChange(st: AddCustomerUiState, phone: string): (r: AddCustomerUiState)
    ensures r.phone == phone && r.error.None?
    ensures r.(phone := st.phone, error := st.error) == st
  {
    st.(phone := phone, error := None)
  }

  function OnAddressChange(st: AddCustomerUiState, address: string): (r: AddCustomerUiState)
    ensures r.address == address && r.error.None?
    ensures r.(address := st.address, error := st.error) == st
  {
    st.(address := address, error := None)
  }

  function OnFrequencyChange(st: AddCustomerUiState, frequency: string): (r: AddCustomerUiState)
    ensures r.frequency == frequency && r.error.None?
    ensures r.(frequency := st.frequency, error := st.error) == st
  {
    st.(frequency := frequency, error := None)
  }

  /** A Kotlin string template prints a null message as "null". */
  function MessageText(message: Option<string>): string {
    message.GetOr("null")
  }

  /** The form state and the store after `saveCustomer`. */
  datatype SaveOutcome = SaveOutcome(state: AddCustomerUiState, store: Store)

  /**
   * `saveCustomer` at time `now`: a blank name, then a blank phone, stops
   * with an error and saves nothing; the address is not checked. Otherwise
   * the customer is inserted with a fresh id, unless the write fails with
   * `fault`, which is reported with the "Failed to save customer: " prefix.
   */
  function SaveCustomer(st: AddCustomerUiState, s: Store, now: int, fault: Option<Exception>): (r: SaveOutcome)
    ensures IsBlank(st.name) ==> r == SaveOutcome(st.(error := Some(NameRequired)), s)
    ensures !IsBlank(st.name) && IsBlank(st.phone) ==> r == SaveOutcome(st.(error := Some(PhoneRequired)), s)
    ensures r.state.isSaved <==> st.isSaved || (!IsBlank(st.name) && !IsBlank(st.phone) && fault.None?)
    ensures !IsBlank(st.name) && !IsBlank(st.phone) ==> !r.state.isLoading
    ensures !IsBlank(st.name) && !IsBlank(st.phone) && fault.None? ==>
      && r.state.error.None?
      && |r.store.customers| == |s.customers| + (if AssignedId(AutoId, s.customerSeq) in s.customers then 0 else 1)
      && AssignedId(AutoId, s.customerSeq) in r.store.customers
      && r.store.customers[AssignedId(AutoId, s.customerSeq)]
         == Customer(AssignedId(AutoId, s.customerSeq), st.name, st.phone, st.address, st.frequency, now)
    ensures !IsBlank(st.name) && !IsBlank(st.phone) && fault.Some? ==>
      r.store == s && r.state.error == Some(SaveFailedPrefix + MessageText(fault.value.message))
    ensures r.state.(error := st.error, isLoading := st.isLoading, isSaved := st.isSaved) == st
    ensures Valid(s) ==> Valid(r.store)
  {
    if IsBlank(st.name) then SaveOutcome(st.(error := Some(NameRequired)), s)
    else if IsBlank(st.phone) then SaveOutcome(st.(error := Some(PhoneRequired)), s)
    else
      var loading := st.(isLoading := true, error := None);
      match fault
      case Some(e) =>
        SaveOutcome(loading.(isLoading := false, error := Some(SaveFailedPrefix + MessageText(e.message))), s)
      case None =>
        var next := CustomerDao.InsertCustomer(s, NewCustomer(st.name, st.phone, st.address, st.frequency, now)).0;
        SaveOutcome(loading.(isLoading := false, isSaved := true), next)
  }

  /** On a consistent store a successful save adds one new customer and keeps every other row. */
  lemma SaveAddsOneCustomer(st: AddCustomerUiState, s: Store, now: int)
    requires Valid(s) && !IsBlank(st.name) && !IsBlank(st.phone)
    ensures var r := SaveCustomer(st, s, now, None).store;
      && r.customers.Keys == s.customers.Keys + {s.customerSeq + 1}
      && s.customerSeq + 1 !in s.customers
      && (forall id :: id in s.customers ==> r.customers[id] == s.customers[id])
      && r.loans == s.loans && r.transactions == s.transactions
  {
    var c := NewCustomer(st.name, st.phone, st.address, st.frequency, now);
    assert SaveCustomer(st, s, now, None).store == CustomerDao.InsertCustomer(s, c).0;
    CustomerDao.InsertFreshCustomer(s, c);
  }

  /** Whitespace-only counts as blank: a name of spaces is refused like an empty one. */
  lemma SpacesAreNotAName(st: AddCustomerUiState, s: Store, now: int, fault: Option<Exception>)
    requires |st.name| > 0 && forall i :: 0 <= i < |st.name| ==> st.name[i] == ' '
    ensures SaveCustomer(st, s, now, fault).state.error == Some(NameRequired)
    ensures SaveCustomer(st, s, now, fault).store == s
  {
  }
}

=== FILE: aggregates.dfy ===
/** SQL aggregate functions (SUM, and the row MIN picks) over a subset of a table, in exact arithmetic. */
module Aggregates {

  /** An arbitrary but fixed element of a non-empty set. */
  ghost function Pick<K>(s: set<K>): (k: K)
    requires s != {}
    ensures k in s
  {
    var k :| k in s; k
  }

  /** `SUM(f(row))` over the rows of `m` whose keys are in `keys`; 0 for no rows. */
  ghost function Sum<K, V>(m: map<K, V>, keys: set<K>, f: V -> real): real
    requires keys <= m.Keys
    decreases keys
  {
    if keys == {} then 0.0
    else
      var k := Pick(keys);
      f(m[k]) + Sum(m, keys - {k}, f)
  }

  /** The sum does not depend on which row is taken first. */
  lemma {:induction false} SumRemove<K, V>(m: map<K, V>, keys: set<K>, f: V -> real, x: K)
    requires keys <= m.Keys && x in keys
    ensures Sum(m, keys, f) == f(m[x]) + Sum(m, keys - {x}, f)
    decreases keys
  {
    var k := Pick(keys);
    if k != x {
      SumRemove(m, keys - {k}, f, x);
      SumRemove(m, keys - {x}, f, k);
      assert keys - {k} - {x} == keys - {x} - {k};
    }
  }

  /** Adding one row to the summed set adds its value. */
  lemma SumAdd<K, V>(m: map<K, V>, keys: set<K>, f: V -> real, x: K)
    requires keys <= m.Keys && x in m && x !in keys
    ensures Sum(m, keys + {x}, f) == Sum(m, keys, f) + f(m[x])
  {
    SumRemove(m, keys + {x}, f, x);
    assert keys + {x} - {x} == keys;
  }

  /** The sum reads only the summed rows. */
  lemma {:induction false} SumFrame<K, V>(m1: map<K, V>, m2: map<K, V>, keys: set<K>, f: V -> real)
    requires keys <= m1.Keys && keys <= m2.Keys
    requires forall k :: k in keys ==> f(m1[k]) == f(m2[k])
    ensures Sum(m1, keys, f) == Sum(m2, keys, f)
    decreases keys
  {
    if keys != {} {
      var k := Pick(keys);
      SumFrame(m1, m2, keys - {k}, f);
    }
  }

  /** Summing two disjoint sets of rows adds the two sums. */
  lemma {:induction false} SumUnion<K, V>(m: map<K, V>, a: set<K>, b: set<K>, f: V -> real)
    requires a <= m.Keys && b <= m.Keys && a !! b
    ensures Sum(m, a + b, f) == Sum(m, a, f) + Sum(m, b, f)
    decreases b
  {
    if b == {} {
      assert a + b == a;
    } else {
      var x := Pick(b);
      SumRemove(m, a + b, f, x);
      assert a + b - {x} == a + (b - {x});
      SumUnion(m, a, b - {x}, f);
      SumRemove(m, b, f, x);
    }
  }

  /** A sum of non-negative values is non-negative. */
  lemma {:induction false} SumNonNegative<K, V>(m: map<K, V>, keys: set<K>, f: V -> real)
    requires keys <= m.Keys
    requires forall k :: k in keys ==> f(m[k]) >= 0.0
    ensures Sum(m, keys, f) >= 0.0
    decreases keys
  {
    if keys != {} {
      SumNonNegative(m, keys - {Pick(keys)}, f);
    }
  }

  /** A row of `keys` at which `f` is smallest. */
  ghost function ArgMin<K, V>(m: map<K, V>, keys: set<K>, f: V -> int): (r: K)
    requires keys != {} && keys <= m.Keys
    ensures r in keys
    ensures forall k :: k in keys ==> f(m[r]) <= f(m[k])
    decreases keys
  {
    var k := Pick(keys);
    if keys == {k} then k
    else
      var rest := ArgMin(m, keys - {k}, f);
      if f(m[k]) <= f(m[rest]) then k else rest
  }
}

=== FILE: backup_repository.dfy ===
/**
 * `BackupRepository`: the snapshot of all three tables, and its restore
 * as one database transaction that clears the tables and inserts the
 * snapshot's rows.
 */
module BackupRepository {
  import opened Wrappers
  import opened Entities
  import opened Collections
  import opened Database
  import LoanDao
  import TransactionDao
  import CustomerDao

  /** `BackupData`: the three tables as lists, and when the snapshot was taken. */
  datatype BackupData = BackupData(
    customers: seq<Customer>,
    loans: seq<Loan>,
    transactions: seq<Transaction>,
    timestamp: int)

  /**
   * What JSON parsing hands to the restore: the parser fills the fields
   * without Kotlin's null checks, so a list missing from the document is
   * null.
   */
  datatype BackupDocument = BackupDocument(
    customers: Option<seq<Customer>>,
    loans: Option<seq<Loan>>,
    transactions: Option<seq<Transaction>>)

  /** The exception raised on reading a null list. */
  const NullList: Exception := Exception(None)

  /**
   * `createBackupJson` before encoding: every row of every table, in scan
   * order, stamped with `now`.
   */
  ghost function CreateBackup(s: Store, now: int): (r: BackupData)
    requires Valid(s)
    ensures IsListing(r.customers, s.customers, CustomerKey)
    ensures IsListing(r.loans, s.loans, LoanKey)
    ensures IsListing(r.transactions, s.transactions, TransactionKey)
    ensures r.timestamp == now
  {
    BackupData(CustomerDao.GetAllCustomers(s), LoanDao.GetAllLoans(s), TransactionDao.GetAllTransactions(s), now)
  }

  /** The document a backup encodes: its three lists, none of them null. */
  function DocumentOf(b: BackupData): BackupDocument {
    BackupDocument(Some(b.customers), Some(b.loans), Some(b.transactions))
  }

  /** `deleteAll` on transactions, then loans, then customers; the id counters stay. */
  function ClearTables(s: Store): (r: Store)
    ensures r.customers == map[] && r.loans == map[] && r.transactions == map[]
    ensures r.customerSeq == s.customerSeq && r.loanSeq == s.loanSeq
    ensures Valid(s) ==> Valid(r)
  {
    CustomerDao.DeleteAll(LoanDao.DeleteAll(TransactionDao.DeleteAll(s)))
  }

  /** `customers.forEach { insertCustomer(it) }`. */
  function InsertCustomers(s: Store, cs: seq<Customer>): (r: Store)
    ensures r.loanSeq == s.loanSeq
    decreases |cs|
  {
    if |cs| == 0 then s
    else
      var n := |cs| - 1;
      CustomerDao.InsertCustomer(InsertCustomers(s, cs[..n]), cs[n]).0
  }

  /** Into empty tables, the customers land keyed by id, later duplicates winning. */
  lemma {:induction false} InsertCustomersIntoEmpty(s: Store, cs: seq<Customer>)
    requires s.customers == map[] && s.loans == map[] && s.transactions == map[]
    requires ExplicitIds(cs, CustomerKey)
    ensures InsertCustomers(s, cs).customers == Keyed(cs, CustomerKey)
    ensures InsertCustomers(s, cs).loans == map[] && InsertCustomers(s, cs).transactions == map[]
    ensures InsertCustomers(s, cs).customerSeq == BumpAll(s.customerSeq, cs, CustomerKey)
    decreases |cs|
  {
    if |cs| > 0 {
      var n := |cs| - 1;
      assert ExplicitIds(cs[..n], CustomerKey) by {
        forall i | 0 <= i < n ensures CustomerKey(cs[..n][i]) != AutoId { assert cs[..n][i] == cs[i]; }
      }
      InsertCustomersIntoEmpty(s, cs[..n]);
      assert cs[n].id != AutoId;
    }
  }

  /** The fold only adds keys: every old customer id and every explicit id in `cs` is present afterwards. */
  lemma {:induction false} InsertCustomersKeepsKeys(s: Store, cs: seq<Customer>)
    ensures s.customers.Keys <= InsertCustomers(s, cs).customers.Keys
    ensures forall i :: 0 <= i < |cs| && cs[i].id != AutoId ==> cs[i].id in InsertCustomers(s, cs).customers
    decreases |cs|
  {
    if |cs| > 0 {
      var n := |cs| - 1;
      InsertCustomersKeepsKeys(s, cs[..n]);
      assert forall i :: 0 <= i < n ==> cs[..n][i] == cs[i];
    }
  }

  lemma {:induction false} InsertCustomersValid(s: Store, cs: seq<Customer>)
    requires Valid(s)
    ensures Valid(InsertCustomers(s, cs))
    decreases |cs|
  {
    if |cs| > 0 {
      InsertCustomersValid(s, cs[..|cs| - 1]);
    }
  }

  /** `loans.forEach { insertLoan(it) }`: stops at the first loan whose customer is missing. */
  function InsertLoans(s: Store, ls: seq<Loan>): (r: Result<Store, Exception>)
    ensures r.Failure? ==> r.error == ForeignKeyFailure
    ensures r.Success? ==> r.value.customers == s.customers && r.value.customerSeq == s.customerSeq
    decreases |ls|
  {
    if |ls| == 0 then Success(s)
    else
      var n := |ls| - 1;
      match InsertLoans(s, ls[..n])
      case Failure(e) => Failure(e)
      case Success(prev) =>
        match LoanDao.InsertLoan(prev, ls[n])
        case Failure(e) => Failure(e)
        case Success((next, _)) => Success(next)
  }

  /** The loans go in exactly when every loan's customer exists. */
  lemma {:induction false} InsertLoansSucceeds(s: Store, ls: seq<Loan>)
    ensures InsertLoans(s, ls).Success? <==> forall i :: 0 <= i < |ls| ==> ls[i].customerId in s.customers
    decreases |ls|
  {
    if |ls| > 0 {
      var n := |ls| - 1;
      assert forall i :: 0 <= i < n ==> ls[..n][i] == ls[i];
      InsertLoansSucceeds(s, ls[..n]);
    }
  }

  /** Into empty loan and transaction tables, the loans land keyed by id, later duplicates winning. */
  lemma {:induction false} InsertLoansIntoEmpty(s: Store, ls: seq<Loan>)
    requires s.loans == map[] && s.transactions == map[]
    requires ExplicitIds(ls, LoanKey)
    requires InsertLoans(s, ls).Success?
    ensures InsertLoans(s, ls).value.loans == Keyed(ls, LoanKey)
    ensures InsertLoans(s, ls).value.transactions == map[]
    ensures InsertLoans(s, ls).value.loanSeq == BumpAll(s.loanSeq, ls, LoanKey)
    decreases |ls|
  {
    if |ls| > 0 {
      var n := |ls| - 1;
      assert ExplicitIds(ls[..n], LoanKey) by {
        forall i | 0 <= i < n ensures LoanKey(ls[..n][i]) != AutoId { assert ls[..n][i] == ls[i]; }
      }
      InsertLoansIntoEmpty(s, ls[..n]);
      assert ls[n].loanId != AutoId;
    }
  }

  lemma {:induction false} InsertLoansValid(s: Store, ls: seq<Loan>)
    requires Valid(s) && InsertLoans(s, ls).Success?
    ensures Valid(InsertLoans(s, ls).value)
    decreases |ls|
  {
    if |ls| > 0 {
      InsertLoansValid(s, ls[..|ls| - 1]);
    }
  }

  /** `transactions.forEach { insertTransaction(it) }`: stops at the first transaction whose loan is missing. */
  function InsertTransactions(s: Store, ts: seq<Transaction>): (r: Result<Store, Exception>)
    ensures r.Failure? ==> r.error == ForeignKeyFailure
    ensures r.Success? ==>
      && r.value.customers == s.customers && r.value.loans == s.loans
      && r.value.customerSeq == s.customerSeq && r.value.loanSeq == s.loanSeq
    decreases |ts|
  {
    if |ts| == 0 then Success(s)
    else
      var n := |ts| - 1;
      match InsertTransactions(s, ts[..n])
      case Failure(e) => Failure(e)
      case Success(prev) => TransactionDao.InsertTransaction(prev, ts[n])
  }

  /** The transactions go in exactly when every transaction's loan exists, landing keyed by id. */
  lemma {:induction false} InsertTransactionsSucceeds(s: Store, ts: seq<Transaction>)
    ensures InsertTransactions(s, ts).Success? <==> forall i :: 0 <= i < |ts| ==> ts[i].loanId in s.loans
    decreases |ts|
  {
    if |ts| > 0 {
      var n := |ts| - 1;
      assert forall i :: 0 <= i < n ==> ts[..n][i] == ts[i];
      InsertTransactionsSucceeds(s, ts[..n]);
    }
  }

  lemma {:induction false} InsertTransactionsIntoEmpty(s: Store, ts: seq<Transaction>)
    requires s.transactions == map[]
    requires InsertTransactions(s, ts).Success?
    ensures InsertTransactions(s, ts).value.transactions == Keyed(ts, TransactionKey)
    decreases |ts|
  {
    if |ts| > 0 {
      InsertTransactionsIntoEmpty(s, ts[..|ts| - 1]);
    }
  }

  lemma {:induction false} InsertTransactionsValid(s: Store, ts: seq<Transaction>)
    requires Valid(s) && InsertTransactions(s, ts).Success?
    ensures Valid(InsertTransactions(s, ts).value)
    decreases |ts|
  {
    if |ts| > 0 {
      InsertTransactionsValid(s, ts[..|ts| - 1]);
    }
  }

  /** All three lists are present. */
  predicate Complete(d: BackupDocument) {
    d.customers.Some? && d.loans.Some? && d.transactions.Some?
  }

  /** No customer or loan of the snapshot asks for a generated id. */
  predicate HasExplicitIds(d: BackupDocument) {
    Complete(d) && ExplicitIds(d.customers.value, CustomerKey) && ExplicitIds(d.loans.value, LoanKey)
  }

  /** Every loan's customer and every transaction's loan is in the snapshot itself. */
  predicate SelfContained(d: BackupDocument)
    requires Complete(d)
  {
    && (forall i :: 0 <= i < |d.loans.value| ==> d.loans.value[i].customerId in Keyed(d.customers.value, CustomerKey))
    && (forall i :: 0 <= i < |d.transactions.value| ==> d.transactions.value[i].loanId in Keyed(d.loans.value, LoanKey))
  }

  /**
   * The body of `withTransaction`: clear, then insert customers, loans and
   * transactions. A failure anywhere rolls everything back, so `Failure`
   * leaves the store as it was.
   */
  function RestoreInTransaction(s: Store, d: BackupDocument): (r: Result<Store, Exception>)
    ensures d.customers.None? || d.loans.None? ==> r == Failure(NullList)
    ensures d.transactions.None? ==> r.Failure?
    ensures r.Failure? ==> r.error == NullList || r.error == ForeignKeyFailure
  {
    var cleared := ClearTables(s);
    if d.customers.None? then Failure(NullList)
    else
      var withCustomers := InsertCustomers(cleared, d.customers.value);
      if d.loans.None? then Failure(NullList)
      else
        match InsertLoans(withCustomers, d.loans.value)
        case Failure(e) => Failure(e)
        case Success(withLoans) =>
          if d.transactions.None? then Failure(NullList)
          else InsertTransactions(withLoans, d.transactions.value)
  }

  /**
   * For a snapshot with explicit ids, restore commits exactly when the
   * snapshot is self-contained, and then each table is the snapshot's rows
   * keyed by id, later duplicates winning; the counters only move up.
   */
  lemma RestoreResult(s: Store, d: BackupDocument)
    requires HasExplicitIds(d)
    ensures RestoreInTransaction(s, d).Success? <==> SelfContained(d)
    ensures RestoreInTransaction(s, d).Success? ==> RestoreInTransaction(s, d).value == Store(
      Keyed(d.customers.value, CustomerKey),
      Keyed(d.loans.value, LoanKey),
      Keyed(d.transactions.value, TransactionKey),
      BumpAll(s.customerSeq, d.customers.value, CustomerKey),
      BumpAll(s.loanSeq, d.loans.value, LoanKey))
  {
    var cleared := ClearTables(s);
    var withCustomers := InsertCustomers(cleared, d.customers.value);
    InsertCustomersIntoEmpty(cleared, d.customers.value);
    InsertLoansSucceeds(withCustomers, d.loans.value);
    if InsertLoans(withCustomers, d.loans.value).Success? {
      var withLoans := InsertLoans(withCustomers, d.loans.value).value;
      InsertLoansIntoEmpty(withCustomers, d.loans.value);
      InsertTransactionsSucceeds(withLoans, d.transactions.value);
      if InsertTransactions(withLoans, d.transactions.value).Success? {
        InsertTransactionsIntoEmpty(withLoans, d.transactions.value);
      }
    }
  }

  /** A committed restore keeps the schema's guarantees, whatever ids the snapshot holds. */
  lemma RestoreKeepsValid(s: Store, d: BackupDocument)
    requires Valid(s) && RestoreInTransaction(s, d).Success?
    ensures Valid(RestoreInTransaction(s, d).value)
  {
    var cleared := ClearTables(s);
    var withCustomers := InsertCustomers(cleared, d.customers.value);
    InsertCustomersValid(cleared, d.customers.value);
    var withLoans := InsertLoans(withCustomers, d.loans.value).value;
    InsertLoansValid(withCustomers, d.loans.value);
    InsertTransactionsValid(withLoans, d.transactions.value);
  }

  /**
   * `restoreBackup(json)` given what parsing `json` gave: a parse error is
   * raised before the transaction opens, a null document inside it.
   */
  function RestoreBackup(s: Store, parsed: Result<Option<BackupDocument>, Exception>): (r: Result<Store, Exception>)
    ensures parsed.Failure? ==> r == Failure(parsed.error)
    ensures parsed == Success(None) ==> r == Failure(NullList)
    ensures parsed.Success? && parsed.value.Some? ==> r == RestoreInTransaction(s, parsed.value.value)
  {
    match parsed
    case Failure(e) => Failure(e)
    case Success(None) => Failure(NullList)
    case Success(Some(d)) => RestoreInTransaction(s, d)
  }

  // ---------------------------------------------------------------------
  // Properties of restore
  // ---------------------------------------------------------------------

  /** Restoring the same snapshot twice gives the store that restoring it once gave. */
  lemma RestoreIsIdempotent(s: Store, d: BackupDocument)
    requires HasExplicitIds(d)
    requires RestoreInTransaction(s, d).Success?
    ensures RestoreInTransaction(RestoreInTransaction(s, d).value, d) == RestoreInTransaction(s, d)
  {
    RestoreResult(s, d);
    var once := RestoreInTransaction(s, d).value;
    RestoreResult(once, d);
    BumpAllFixed(once.customerSeq, d.customers.value, CustomerKey);
    BumpAllFixed(once.loanSeq, d.loans.value, LoanKey);
  }

  /** Restoring a backup just taken gives back exactly the store it was taken from. */
  lemma RestoreOwnBackup(s: Store, now: int)
    requires Valid(s)
    ensures RestoreBackup(s, Success(Some(DocumentOf(CreateBackup(s, now))))) == Success(s)
  {
    var b := CreateBackup(s, now);
    var d := DocumentOf(b);
    ListingKeyed(b.customers, s.customers, CustomerKey);
    ListingKeyed(b.loans, s.loans, LoanKey);
    ListingKeyed(b.transactions, s.transactions, TransactionKey);
    assert HasExplicitIds(d);
    assert SelfContained(d);
    RestoreResult(s, d);
    BumpAllFixed(s.customerSeq, b.customers, CustomerKey);
    BumpAllFixed(s.loanSeq, b.loans, LoanKey);
  }

  /** A loan whose customer is not in the snapshot makes the whole restore fail. */
  lemma OrphanLoanFailsRestore(s: Store, d: BackupDocument, i: int)
    requires HasExplicitIds(d)
    requires 0 <= i < |d.loans.value| && d.loans.value[i].customerId !in Keyed(d.customers.value, CustomerKey)
    ensures RestoreInTransaction(s, d).Failure?
  {
    RestoreResult(s, d);
  }

  /** A transaction whose loan is not in the snapshot makes the whole restore fail. */
  lemma OrphanTransactionFailsRestore(s: Store, d: BackupDocument, i: int)
    requires HasExplicitIds(d)
    requires 0 <= i < |d.transactions.value| && d.transactions.value[i].loanId !in Keyed(d.loans.value, LoanKey)
    ensures RestoreInTransaction(s, d).Failure?
  {
    RestoreResult(s, d);
  }

  /**
   * A customer saved with id 0 gets a fresh id from the counter, which the
   * clearing does not reset, so restoring such a snapshot twice differs.
   */
  lemma GeneratedIdSnapshotIsNotIdempotent()
    ensures var d := BackupDocument(Some([Customer(AutoId, "A", "1", "", "Weekly", 0)]), Some([]), Some([]));
      && RestoreInTransaction(EmptyStore, d).Success?
      && RestoreInTransaction(RestoreInTransaction(EmptyStore, d).value, d) != RestoreInTransaction(EmptyStore, d)
  {
    var c := Customer(AutoId, "A", "1", "", "Weekly", 0);
    var d := BackupDocument(Some([c]), Some([]), Some([]));
    assert [c][..0] == [];
    var cleared := ClearTables(EmptyStore);
    assert InsertCustomers(cleared, [c]) == CustomerDao.InsertCustomer(cleared, c).0;
    var once := RestoreInTransaction(EmptyStore, d);
    assert once.value.customers == map[1 := c.(id := 1)];
    assert once.value.customerSeq == 1;
    var cleared2 := ClearTables(once.value);
    assert InsertCustomers(cleared2, [c]) == CustomerDao.InsertCustomer(cleared2, c).0;
    var twice := RestoreInTransaction(once.value, d);
    assert twice.value.customers == map[2 := c.(id := 2)];
  }
}

=== FILE: collection_repository.dfy ===
/**
 * `CollectionRepositoryImpl`: the sort-option dispatch, settlement of one
 * installment, and the null-to-zero mapping of the collection sums.
 */
module CollectionRepository {
  import opened Wrappers
  import opened Entities
  import opened Collections
  import opened Aggregates
  import opened Sorting
  import opened Database
  import LoanDao
  import TransactionDao
  import CustomerDao

  /** The home screen's sort choice. */
  datatype SortOption = URGENT | HIGHEST_DEBT | NAME_AZ

  /** Whether the chosen query coalesces a missing debt to 0.0. */
  function Coalesces(option: SortOption): bool {
    option == HIGHEST_DEBT
  }

  /** The `ORDER BY` of the chosen query. */
  function OrderOf(option: SortOption): (CustomerDao.CustomerWithDebtStatus, CustomerDao.CustomerWithDebtStatus) -> bool {
    match option
    case URGENT => CustomerDao.UrgencyLe
    case HIGHEST_DEBT => CustomerDao.DebtLe
    case NAME_AZ => CustomerDao.NameLe
  }

  /**
   * `getCustomersSorted`: URGENT runs the urgency query, HIGHEST_DEBT the
   * debt query and NAME_AZ the name query. Each lists every customer once,
   * ordered by that query's key; equal keys come in no particular order.
   */
  ghost function GetCustomersSorted(s: Store, option: SortOption): (r: seq<CustomerDao.CustomerWithDebtStatus>)
    requires Valid(s)
    ensures IsListing(r, CustomerDao.StatusTable(s, Coalesces(option)), CustomerDao.StatusKey)
    ensures SortedBy(r, OrderOf(option))
  {
    match option
    case URGENT => CustomerDao.GetCustomersSortedByUrgency(s)
    case HIGHEST_DEBT =>
      var r := CustomerDao.GetCustomersSortedByDebt(s);
      assert SortedBy(r, CustomerDao.DebtLe);
      r
    case NAME_AZ => CustomerDao.GetCustomersSortedByName(s)
  }

  const LoanNotFound: Exception := Exception(Some("Loan not found"))
  const AmountExceedsBalance: Exception := Exception(Some("Amount exceeds current balance"))

  /**
   * The loan as `payInstallment` rewrites it: the balance drops by
   * `amount`, the loan closes exactly when the balance reaches 0 or less,
   * and an open loan's due date moves by one week whatever its frequency.
   */
  function Settle(loan: Loan, amount: real): (r: Loan)
    ensures r.currentBalance == loan.currentBalance - amount
    ensures r.isClosed <==> r.currentBalance <= 0.0
    ensures r.nextDueDate == if r.isClosed then loan.nextDueDate else loan.nextDueDate + WeekMillis
    ensures r.(currentBalance := loan.currentBalance, isClosed := loan.isClosed, nextDueDate := loan.nextDueDate) == loan
  {
    var newBalance := loan.currentBalance - amount;
    var isClosed := newBalance <= 0.0;
    var nextDue := if !isClosed then loan.nextDueDate + 7 * 24 * 60 * 60 * 1000 else loan.nextDueDate;
    loan.(currentBalance := newBalance, isClosed := isClosed, nextDueDate := nextDue)
  }

  /**
   * The first half of `payInstallment`: read the loan, check the amount
   * against the balance (the only check), and write the settled loan.
   * Nothing records the payment yet.
   */
  function UpdateSettledLoan(s: Store, loanId: int, amount: real): (r: Result<Store, Exception>)
    ensures loanId !in s.loans ==> r == Failure(LoanNotFound)
    ensures loanId in s.loans && amount > s.loans[loanId].currentBalance ==> r == Failure(AmountExceedsBalance)
    ensures Valid(s) ==> (r.Success? <==> loanId in s.loans && amount <= s.loans[loanId].currentBalance)
    ensures Valid(s) && r.Success? ==> loanId in s.loans && r.value.loans == s.loans[loanId := Settle(s.loans[loanId], amount)]
    ensures r.Success? ==> r.value.customers == s.customers && r.value.transactions == s.transactions
    ensures Valid(s) && r.Success? ==> Valid(r.value)
  {
    match LoanDao.GetLoanById(s, loanId)
    case None => Failure(LoanNotFound)
    case Some(loan) =>
      if amount > loan.currentBalance then Failure(AmountExceedsBalance)
      else
        var updated := Settle(loan, amount);
        LoanDao.UpdateLoan(s, updated)
  }

  /** The payment row `payInstallment` appends; `uuid` is its fresh random id. */
  function PaymentRecord(uuid: string, loanId: int, amount: real, now: int): Transaction {
    NewTransaction(uuid, loanId, amount, now)
  }

  /**
   * `payInstallment(loanId, amount)` at time `now`: the settled loan is
   * written, then one transaction of `amount` is inserted. The two writes
   * are separate; a failure leaves the store as it was.
   */
  function PayInstallment(s: Store, loanId: int, amount: real, now: int, uuid: string): (r: Result<Store, Exception>)
    ensures loanId !in s.loans ==> r == Failure(LoanNotFound)
    ensures loanId in s.loans && amount > s.loans[loanId].currentBalance ==> r == Failure(AmountExceedsBalance)
    ensures Valid(s) ==> (r.Success? <==> loanId in s.loans && amount <= s.loans[loanId].currentBalance)
    ensures Valid(s) && r.Success? ==>
      && loanId in s.loans
      && r.value.loans == s.loans[loanId := Settle(s.loans[loanId], amount)]
      && r.value.transactions == s.transactions[uuid := Transaction(uuid, loanId, amount, now)]
      && r.value.customers == s.customers
    ensures Valid(s) && r.Success? ==> Valid(r.value)
  {
    match UpdateSettledLoan(s, loanId, amount)
    case Failure(e) => Failure(e)
    case Success(mid) => TransactionDao.InsertTransaction(mid, PaymentRecord(uuid, loanId, amount, now))
  }

  /** `getCollectedToday` for a day given by its bounds; a day with no payment gives 0.0. */
  ghost function GetCollectedToday(s: Store, startOfDay: int, endOfDay: int): (r: real)
    ensures (forall k :: k in s.transactions ==> s.transactions[k].datePaid < startOfDay || s.transactions[k].datePaid > endOfDay) ==> r == 0.0
    ensures r == Sum(s.transactions, TransactionDao.PaidBetween(s, startOfDay, endOfDay), AmountPaid)
  {
    TransactionDao.GetTotalCollectionBetween(s, startOfDay, endOfDay).GetOr(0.0)
  }

  /** `getTotalCollection`: the sum of every payment, 0.0 for none. */
  ghost function GetTotalCollection(s: Store): (r: real)
    ensures s.transactions == map[] ==> r == 0.0
    ensures r == Sum(s.transactions, s.transactions.Keys, AmountPaid)
  {
    TransactionDao.GetTotalCollection(s).GetOr(0.0)
  }

  // ---------------------------------------------------------------------
  // Properties of settlement
  // ---------------------------------------------------------------------

  /** With a fresh id, settlement adds exactly one transaction. */
  lemma PaymentAddsOneTransaction(s: Store, loanId: int, amount: real, now: int, uuid: string)
    requires Valid(s) && PayInstallment(s, loanId, amount, now, uuid).Success?
    requires uuid !in s.transactions
    ensures var r := PayInstallment(s, loanId, amount, now, uuid).value;
      && r.transactions.Keys == s.transactions.Keys + {uuid}
      && r.transactions[uuid] == Transaction(uuid, loanId, amount, now)
      && (forall k :: k in s.transactions ==> r.transactions[k] == s.transactions[k])
  {
  }

  /**
   * Between the two writes the loan is already settled but its payment is
   * not recorded: a reader, or a crash, sees this state.
   */
  lemma SettledBeforeRecorded(s: Store, loanId: int, amount: real)
    requires Valid(s) && loanId in s.loans && amount <= s.loans[loanId].currentBalance
    ensures UpdateSettledLoan(s, loanId, amount).Success?
    ensures UpdateSettledLoan(s, loanId, amount).value.loans[loanId] == Settle(s.loans[loanId], amount)
    ensures UpdateSettledLoan(s, loanId, amount).value.transactions == s.transactions
  {
  }

  /** Only the upper bound is checked: any amount not above the balance is taken, a negative one raising it. */
  lemma NegativeAmountRaisesBalance(s: Store, loanId: int, amount: real, now: int, uuid: string)
    requires Valid(s) && loanId in s.loans && amount < 0.0 && amount <= s.loans[loanId].currentBalance
    ensures PayInstallment(s, loanId, amount, now, uuid).Success?
    ensures PayInstallment(s, loanId, amount, now, uuid).value.loans[loanId].currentBalance > s.loans[loanId].currentBalance
  {
  }

  /** A closed loan is not refused; an amount below its balance reopens it with the due date a week on. */
  lemma ClosedLoanReopens(s: Store, loanId: int, amount: real, now: int, uuid: string)
    requires Valid(s) && loanId in s.loans && s.loans[loanId].isClosed
    requires amount < s.loans[loanId].currentBalance
    ensures PayInstallment(s, loanId, amount, now, uuid).Success?
    ensures !PayInstallment(s, loanId, amount, now, uuid).value.loans[loanId].isClosed
    ensures PayInstallment(s, loanId, amount, now, uuid).value.loans[loanId].nextDueDate == s.loans[loanId].nextDueDate + WeekMillis
  {
  }

  /** The transaction ids recorded against `loanId`. */
  function PaymentsOf(s: Store, loanId: int): set<string> {
    set k | k in s.transactions && s.transactions[k].loanId == loanId
  }

  /** What has been paid on a loan, by its transactions. */
  ghost function Paid(s: Store, loanId: int): real {
    Sum(s.transactions, PaymentsOf(s, loanId), AmountPaid)
  }

  /** The ledger of a loan balances: what is still owed plus what was paid is the financed amount. */
  ghost predicate Balanced(s: Store, loanId: int)
    requires loanId in s.loans
  {
    s.loans[loanId].currentBalance + Paid(s, loanId) == s.loans[loanId].totalPrincipal - s.loans[loanId].downPayment
  }

  /** A completed settlement with a fresh id keeps a balanced ledger balanced. */
  lemma PaymentKeepsLedgerBalanced(s: Store, loanId: int, amount: real, now: int, uuid: string)
    requires Valid(s) && PayInstallment(s, loanId, amount, now, uuid).Success?
    requires uuid !in s.transactions
    requires Balanced(s, loanId)
    ensures loanId in PayInstallment(s, loanId, amount, now, uuid).value.loans
    ensures Balanced(PayInstallment(s, loanId, amount, now, uuid).value, loanId)
  {
    var r := PayInstallment(s, loanId, amount, now, uuid).value;
    assert PaymentsOf(r, loanId) == PaymentsOf(s, loanId) + {uuid};
    SumFrame(s.transactions, r.transactions, PaymentsOf(s, loanId), AmountPaid);
    SumAdd(r.transactions, PaymentsOf(s, loanId), AmountPaid, uuid);
  }

  /** Stopped after the first write, a nonzero payment leaves the ledger unbalanced. */
  lemma HalfDonePaymentUnbalances(s: Store, loanId: int, amount: real)
    requires Valid(s) && loanId in s.loans && amount <= s.loans[loanId].currentBalance
    requires Balanced(s, loanId) && amount != 0.0
    ensures UpdateSettledLoan(s, loanId, amount).Success?
    ensures loanId in UpdateSettledLoan(s, loanId, amount).value.loans
    ensures !Balanced(UpdateSettledLoan(s, loanId, amount).value, loanId)
  {
    var mid := UpdateSettledLoan(s, loanId, amount).value;
    assert PaymentsOf(mid, loanId) == PaymentsOf(s, loanId);
  }

  /** A payment with a fresh id adds its amount to the total collection. */
  lemma PaymentGrowsTotalCollection(s: Store, loanId: int, amount: real, now: int, uuid: string)
    requires Valid(s) && PayInstallment(s, loanId, amount, now, uuid).Success?
    requires uuid !in s.transactions
    ensures GetTotalCollection(PayInstallment(s, loanId, amount, now, uuid).value) == GetTotalCollection(s) + amount
  {
    var r := PayInstallment(s, loanId, amount, now, uuid).value;
    SumFrame(s.transactions, r.transactions, s.transactions.Keys, AmountPaid);
    SumAdd(r.transactions, s.transactions.Keys, AmountPaid, uuid);
    assert r.transactions.Keys == s.transactions.Keys + {uuid};
  }

  /** A payment made within the day's bounds adds its amount to that day's collection. */
  lemma PaymentCountsToday(s: Store, loanId: int, amount: real, now: int, uuid: string, startOfDay: int, endOfDay: int)
    requires Valid(s) && PayInstallment(s, loanId, amount, now, uuid).Success?
    requires uuid !in s.transactions
    requires startOfDay <= now <= endOfDay
    ensures GetCollectedToday(PayInstallment(s, loanId, amount, now, uuid).value, startOfDay, endOfDay)
         == GetCollectedToday(s, startOfDay, endOfDay) + amount
  {
    var r := PayInstallment(s, loanId, amount, now, uuid).value;
    var before := TransactionDao.PaidBetween(s, startOfDay, endOfDay);
    assert TransactionDao.PaidBetween(r, startOfDay, endOfDay) == before + {uuid};
    SumFrame(s.transactions, r.transactions, before, AmountPaid);
    SumAdd(r.transactions, before, AmountPaid, uuid);
  }

  /** Paying on an open loan never makes more loans overdue. */
  lemma PaymentDoesNotAddOverdue(s: Store, loanId: int, amount: real, now: int, uuid: string, t: int)
    requires Valid(s) && PayInstallment(s, loanId, amount, now, uuid).Success?
    requires !s.loans[loanId].isClosed
    ensures LoanDao.CountOverdueLoans(PayInstallment(s, loanId, amount, now, uuid).value, t) <= LoanDao.CountOverdueLoans(s, t)
  {
    var r := PayInstallment(s, loanId, amount, now, uuid).value;
    assert LoanDao.OverdueIds(r, t) <= LoanDao.OverdueIds(s, t);
    LoanDao.SubsetCardinality(LoanDao.OverdueIds(r, t), LoanDao.OverdueIds(s, t));
  }
}

=== FILE: collections.dfy ===
/** Sequence and map helpers shared by the table model. */
module Collections {

  /** No element occurs twice. */
  predicate Distinct<T(==)>(s: seq<T>) {
    forall i, j :: 0 <= i < j < |s| ==> s[i] != s[j]
  }

  /**
   * Some listing of a finite set, each element once. The order is a fixed
   * but unspecified choice, like the row order of an unordered SQL scan.
   */
  ghost function Enumerate<K(!new)>(keys: set<K>): (r: seq<K>)
    ensures Distinct(r)
    ensures forall k :: k in r <==> k in keys
    decreases keys
  {
    if keys == {} then []
    else
      var k :| k in keys;
      [k] + Enumerate(keys - {k})
  }

  /** `vs` lists the map `m` by the key `key`: every entry exactly once. */
  ghost predicate IsListing<K, V>(vs: seq<V>, m: map<K, V>, key: V -> K) {
    && (forall i :: 0 <= i < |vs| ==> key(vs[i]) in m && m[key(vs[i])] == vs[i])
    && (forall i, j :: 0 <= i < j < |vs| ==> key(vs[i]) != key(vs[j]))
    && (forall k :: k in m ==> exists i :: 0 <= i < |vs| && key(vs[i]) == k)
  }

  /** Every entry of `m` is stored under its own key. */
  ghost predicate KeyedBy<K, V>(m: map<K, V>, key: V -> K) {
    forall k :: k in m ==> key(m[k]) == k
  }

  /** The rows of a table in the order of an unordered scan. */
  ghost function Rows<K(!new), V>(m: map<K, V>): (r: seq<V>)
    ensures |r| == |Enumerate(m.Keys)|
    ensures forall i :: 0 <= i < |r| ==> r[i] == m[Enumerate(m.Keys)[i]]
  {
    var ks := Enumerate(m.Keys);
    seq(|ks|, i requires 0 <= i < |ks| => m[ks[i]])
  }

  lemma RowsAreListing<K(!new), V>(m: map<K, V>, key: V -> K)
    requires KeyedBy(m, key)
    ensures IsListing(Rows(m), m, key)
  {
    var ks := Enumerate(m.Keys);
    var r := Rows(m);
    forall k | k in m
      ensures exists i :: 0 <= i < |r| && key(r[i]) == k
    {
      var i :| 0 <= i < |ks| && ks[i] == k;
      assert key(r[i]) == k;
    }
  }

  /** The elements of `s` that satisfy `p`, in their original order. */
  function Filter<T(!new)>(s: seq<T>, p: T -> bool): (r: seq<T>)
    ensures |r| <= |s|
    ensures forall x :: x in r <==> x in s && p(x)
    ensures forall x :: multiset(r)[x] == if p(x) then multiset(s)[x] else 0
  {
    if |s| == 0 then []
    else
      assert s == [s[0]] + s[1..];
      if p(s[0]) then [s[0]] + Filter(s[1..], p) else Filter(s[1..], p)
  }

  /** The entries of `m` whose value satisfies `p`: a `WHERE` clause on a table. */
  function Where<K(!new), V>(m: map<K, V>, p: V -> bool): (r: map<K, V>)
    ensures forall k :: k in r <==> k in m && p(m[k])
    ensures forall k :: k in r ==> r[k] == m[k]
  {
    map k | k in m && p(m[k]) :: m[k]
  }

  /** A listing filtered by `p` lists the entries satisfying `p`. */
  lemma FilterListing<K(!new), V(!new)>(vs: seq<V>, m: map<K, V>, key: V -> K, p: V -> bool)
    requires IsListing(vs, m, key)
    ensures IsListing(Filter(vs, p), Where(m, p), key)
  {
    var r := Filter(vs, p);
    var sub := Where(m, p);
    forall i | 0 <= i < |r|
      ensures key(r[i]) in sub && sub[key(r[i])] == r[i]
    {
      assert r[i] in vs;
    }
    FilterKeepsKeysDistinct(vs, p, key);
    forall k | k in sub
      ensures exists i :: 0 <= i < |r| && key(r[i]) == k
    {
      var i :| 0 <= i < |vs| && key(vs[i]) == k;
      assert vs[i] in r;
      var j :| 0 <= j < |r| && r[j] == vs[i];
    }
  }

  /** Filtering never makes two elements share a key. */
  lemma {:induction false} FilterKeepsKeysDistinct<K, V(!new)>(s: seq<V>, p: V -> bool, key: V -> K)
    requires forall i, j :: 0 <= i < j < |s| ==> key(s[i]) != key(s[j])
    ensures forall i, j :: 0 <= i < j < |Filter(s, p)| ==> key(Filter(s, p)[i]) != key(Filter(s, p)[j])
  {
    if |s| > 0 {
      FilterKeepsKeysDistinct(s[1..], p, key);
      var rest := Filter(s[1..], p);
      if p(s[0]) {
        forall x | x in rest
          ensures key(s[0]) != key(x)
        {
          var k :| 0 <= k < |s[1..]| && s[1..][k] == x;
          assert s[k + 1] == x;
        }
      }
    }
  }

  /** No two elements of `s` share a key. */
  ghost predicate KeysDistinct<K, V>(s: seq<V>, key: V -> K) {
    forall i, j :: 0 <= i < j < |s| ==> key(s[i]) != key(s[j])
  }

  /** With distinct keys, no value occurs twice. */
  lemma {:induction false} KeysDistinctOnce<K, V>(s: seq<V>, key: V -> K, x: V)
    requires KeysDistinct(s, key)
    ensures multiset(s)[x] <= 1
  {
    if |s| > 0 {
      assert s == [s[0]] + s[1..];
      assert KeysDistinct(s[1..], key) by {
        forall i, j | 0 <= i < j < |s[1..]|
          ensures key(s[1..][i]) != key(s[1..][j])
        {
          assert s[1..][i] == s[i + 1] && s[1..][j] == s[j + 1];
        }
      }
      KeysDistinctOnce(s[1..], key, x);
      if x == s[0] {
        assert x !in s[1..] by {
          forall i | 0 <= i < |s[1..]|
            ensures s[1..][i] != x
          {
            assert s[1..][i] == s[i + 1];
            assert key(s[0]) != key(s[i + 1]);
          }
        }
      }
    }
  }

  /** A value at two positions is counted at least twice. */
  lemma TwiceCounted<T>(s: seq<T>, i: int, j: int)
    requires 0 <= i < j < |s| && s[i] == s[j]
    ensures multiset(s)[s[i]] >= 2
  {
    assert s == s[..j] + s[j..];
    assert s[i] == s[..j][i];
    assert s[j..][0] == s[j];
  }

  /** Any reordering of a listing is a listing of the same map. */
  lemma PermutedListing<K, V>(vs: seq<V>, r: seq<V>, m: map<K, V>, key: V -> K)
    requires IsListing(vs, m, key)
    requires multiset(r) == multiset(vs)
    ensures IsListing(r, m, key)
  {
    forall i | 0 <= i < |r|
      ensures key(r[i]) in m && m[key(r[i])] == r[i]
    {
      assert r[i] in multiset(vs);
      var a :| 0 <= a < |vs| && vs[a] == r[i];
    }
    forall i, j | 0 <= i < j < |r|
      ensures key(r[i]) != key(r[j])
    {
      if key(r[i]) == key(r[j]) {
        TwiceCounted(r, i, j);
        KeysDistinctOnce(vs, key, r[i]);
      }
    }
    forall k | k in m
      ensures exists i :: 0 <= i < |r| && key(r[i]) == k
    {
      var a :| 0 <= a < |vs| && key(vs[a]) == k;
      assert vs[a] in multiset(r);
      var i :| 0 <= i < |r| && r[i] == vs[a];
    }
  }

  /**
   * The map that storing `vs` in order by `key` builds, each store replacing
   * an earlier value under the same key.
   */
  function Keyed<K(!new), V(!new)>(vs: seq<V>, key: V -> K): (r: map<K, V>)
    ensures forall k :: k in r <==> exists i :: 0 <= i < |vs| && key(vs[i]) == k
    decreases |vs|
  {
    if |vs| == 0 then map[]
    else
      var n := |vs| - 1;
      var prev := Keyed(vs[..n], key);
      assert forall i :: 0 <= i < n ==> vs[..n][i] == vs[i];
      prev[key(vs[n]) := vs[n]]
  }

  /** Every value of the built map is one of `vs`, stored under its own key. */
  lemma {:induction false} KeyedValues<K(!new), V(!new)>(vs: seq<V>, key: V -> K, k: K)
    requires k in Keyed(vs, key)
    ensures key(Keyed(vs, key)[k]) == k
    ensures exists i :: 0 <= i < |vs| && Keyed(vs, key)[k] == vs[i]
    decreases |vs|
  {
    var n := |vs| - 1;
    if key(vs[n]) != k {
      KeyedValues(vs[..n], key, k);
      var i :| 0 <= i < n && Keyed(vs[..n], key)[k] == vs[..n][i];
      assert vs[..n][i] == vs[i];
    }
  }

  /** A later duplicate wins: the value kept under a key is its last occurrence. */
  lemma {:induction false} LaterDuplicateWins<K(!new), V(!new)>(vs: seq<V>, key: V -> K, i: int)
    requires 0 <= i < |vs|
    requires forall j :: i < j < |vs| ==> key(vs[j]) != key(vs[i])
    ensures key(vs[i]) in Keyed(vs, key) && Keyed(vs, key)[key(vs[i])] == vs[i]
    decreases |vs|
  {
    var n := |vs| - 1;
    if i < n {
      assert vs[..n][i] == vs[i];
      forall j | i < j < n ensures key(vs[..n][j]) != key(vs[..n][i]) {
        assert vs[..n][j] == vs[j];
      }
      LaterDuplicateWins(vs[..n], key, i);
    }
  }

  /** Storing a listing of a map rebuilds exactly that map. */
  lemma ListingKeyed<K(!new), V(!new)>(vs: seq<V>, m: map<K, V>, key: V -> K)
    requires IsListing(vs, m, key)
    ensures Keyed(vs, key) == m
  {
    var r := Keyed(vs, key);
    forall k | k in m
      ensures k in r && r[k] == m[k]
    {
      var i :| 0 <= i < |vs| && key(vs[i]) == k;
      LaterDuplicateWins(vs, key, i);
    }
    forall k | k in r
      ensures k in m
    {
      var i :| 0 <= i < |vs| && key(vs[i]) == k;
    }
  }
}

=== FILE: converters.dfy ===
/** The Room type converters for dates and frequencies. */
module Converters {
  import opened Wrappers
  import opened Entities

  /** A `java.util.Date`: milliseconds since the epoch. */
  datatype Date = Date(time: int)

  /** `Date?` to `Long?`. */
  function DateToTimestamp(date: Option<Date>): (r: Option<int>)
    ensures r.None? <==> date.None?
    ensures date.Some? ==> r == Some(date.value.time)
  {
    match date
    case None => None
    case Some(d) => Some(d.time)
  }

  /** Reading a stored timestamp back as a date gives the date that was written. */
  lemma DateRoundTrip(date: Option<Date>)
    ensures FromTimestamp(DateToTimestamp(date)) == date
  {
  }

  /** `Long?` to `Date?`; converting back gives the same timestamp. */
  function FromTimestamp(value: Option<int>): (r: Option<Date>)
    ensures r.None? <==> value.None?
    ensures DateToTimestamp(r) == value
  {
    match value
    case None => None
    case Some(t) => Some(Date(t))
  }

  /** `EmiFrequency?` to its enum name. */
  function EmiFrequencyToString(frequency: Option<EmiFrequency>): (r: Option<string>)
    ensures r.None? <==> frequency.None?
    ensures frequency == Some(WEEKLY) ==> r == Some("WEEKLY")
    ensures frequency == Some(MONTHLY) ==> r == Some("MONTHLY")
  {
    match frequency
    case None => None
    case Some(WEEKLY) => Some("WEEKLY")
    case Some(MONTHLY) => Some("MONTHLY")
  }

  /** What `EmiFrequency.valueOf` throws for an unknown name. */
  function NoEnumConstant(name: string): Exception {
    Exception(Some("No enum constant com.emicollect.app.data.local.entity.EmiFrequency." + name))
  }

  /**
   * `String?` to `EmiFrequency?` by `valueOf`: exactly the two enum names are
   * accepted, and an accepted name converts back to itself.
   */
  function FromEmiFrequency(value: Option<string>): (r: Result<Option<EmiFrequency>, Exception>)
    ensures value.None? ==> r == Success(None)
    ensures value.Some? ==> (r.Success? <==> value.value == "WEEKLY" || value.value == "MONTHLY")
    ensures value == Some("WEEKLY") ==> r == Success(Some(WEEKLY))
    ensures value == Some("MONTHLY") ==> r == Success(Some(MONTHLY))
    ensures r.Failure? ==> r.error == NoEnumConstant(value.value)
    ensures r.Success? ==> EmiFrequencyToString(r.value) == value
  {
    match value
    case None => Success(None)
    case Some(name) =>
      if name == "WEEKLY" then Success(Some(WEEKLY))
      else if name == "MONTHLY" then Success(Some(MONTHLY))
      else Failure(NoEnumConstant(name))
  }

  /** Enum to name and back is the identity, for every frequency and for null. */
  lemma FrequencyRoundTrip(f: Option<EmiFrequency>)
    ensures FromEmiFrequency(EmiFrequencyToString(f)) == Success(f)
  {
  }
}

=== FILE: customer_dao.dfy ===
/**
 * `CustomerDao`: the writes on `customers` and the four queries that join
 * each customer with the aggregate of its open loans.
 */
module CustomerDao {
  import opened Wrappers
  import opened Entities
  import opened Collections
  import opened Aggregates
  import opened Sorting
  import opened SqliteText
  import opened Database
  import LoanDao

  /**
   * Stores `c` under `id` the way REPLACE does: any row already under `id`
   * is deleted first, and the foreign-key cascade takes its loans and their
   * transactions with it.
   */
  function ReplaceCustomer(s: Store, c: Customer, id: int): (r: Store)
    ensures r.customers == s.customers[id := c.(id := id)]
    ensures id !in s.customers ==> r.loans == s.loans && r.transactions == s.transactions
    ensures id in s.customers ==> r.loans == Where(s.loans, LoansNotOf({id}))
    ensures forall lid :: lid in r.loans ==> lid in s.loans && r.loans[lid] == s.loans[lid]
    ensures forall t :: t in r.transactions ==> t in s.transactions && r.transactions[t] == s.transactions[t]
    ensures Valid(s) ==> forall t :: t in r.transactions <==> t in s.transactions && s.transactions[t].loanId in r.loans
    ensures r.customerSeq == Bump(s.customerSeq, id) && r.loanSeq == s.loanSeq
  {
    var cleared := DeleteCustomerRows(s, {id});
    assert {id} * s.customers.Keys == (if id in s.customers then {id} else {});
    assert id !in s.customers ==> cleared.loans == s.loans;
    assert id !in s.customers ==> cleared.transactions == s.transactions by {
      if id !in s.customers {
        assert Where(s.loans, LoansNotOf({})) == s.loans;
      }
    }
    assert id in s.customers ==> cleared.loans == Where(s.loans, LoansNotOf({id}));
    cleared.(customers := cleared.customers[id := c.(id := id)], customerSeq := Bump(s.customerSeq, id))
  }

  /**
   * `@Insert(onConflict = REPLACE)`: the customer is stored under its id
   * or, for `AutoId`, a fresh one, replacing any row already there with
   * its cascade. Customers have no foreign key, so it never fails.
   */
  function InsertCustomer(s: Store, c: Customer): (r: (Store, int))
    ensures r.1 == AssignedId(c.id, s.customerSeq)
    ensures r.0.customers == s.customers[r.1 := c.(id := r.1)]
    ensures r.0.customerSeq == Bump(s.customerSeq, r.1) && r.0.loanSeq == s.loanSeq
    ensures r.1 !in s.customers ==> r.0.loans == s.loans && r.0.transactions == s.transactions
    ensures r.1 in s.customers ==> r.0.loans == Where(s.loans, LoansNotOf({r.1}))
    ensures forall id :: id in r.0.loans ==> id in s.loans && r.0.loans[id] == s.loans[id]
    ensures forall t :: t in r.0.transactions ==> t in s.transactions && r.0.transactions[t] == s.transactions[t]
    ensures Valid(s) ==> forall t :: t in r.0.transactions <==> t in s.transactions && s.transactions[t].loanId in r.0.loans
    ensures Valid(s) ==> Valid(r.0)
    ensures Valid(s) && c.id == AutoId ==> r.1 !in s.customers && r.1 > 0
  {
    var id := AssignedId(c.id, s.customerSeq);
    (ReplaceCustomer(s, c, id), id)
  }

  /**
   * On a consistent store a customer with a generated id lands under a new
   * key, one past the counter, and the loans and transactions stay.
   */
  lemma InsertFreshCustomer(s: Store, c: Customer)
    requires Valid(s) && c.id == AutoId
    ensures var r := InsertCustomer(s, c).0;
      && s.customerSeq + 1 !in s.customers
      && r.customers.Keys == s.customers.Keys + {s.customerSeq + 1}
      && (forall id :: id in s.customers ==> r.customers[id] == s.customers[id])
      && r.loans == s.loans && r.transactions == s.transactions
  {
    var id := s.customerSeq + 1;
    assert InsertCustomer(s, c).1 == id;
    assert id !in s.customers;
  }

  /** `@Update`: rewrites the row with the customer's id, if there is one. */
  function UpdateCustomer(s: Store, c: Customer): (r: Store)
    ensures r.customers == (if c.id in s.customers then s.customers[c.id := c] else s.customers)
    ensures r.loans == s.loans && r.transactions == s.transactions
    ensures r.customerSeq == s.customerSeq && r.loanSeq == s.loanSeq
    ensures Valid(s) ==> Valid(r)
  {
    if c.id in s.customers then s.(customers := s.customers[c.id := c]) else s
  }

  /**
   * `@Delete`: removes the customer and, by cascade, its loans and their
   * transactions; every other row stays.
   */
  function DeleteCustomer(s: Store, c: Customer): (r: Store)
    ensures r.customers == s.customers - {c.id}
    ensures forall id :: id in r.loans <==> id in s.loans && (s.loans[id].customerId != c.id || c.id !in s.customers)
    ensures forall id :: id in r.loans ==> r.loans[id] == s.loans[id]
    ensures Valid(s) ==> forall t :: t in r.transactions <==> t in s.transactions && s.transactions[t].loanId in r.loans
    ensures forall t :: t in r.transactions ==> t in s.transactions && r.transactions[t] == s.transactions[t]
    ensures Valid(s) ==> Valid(r)
    ensures r.customerSeq == s.customerSeq && r.loanSeq == s.loanSeq
  {
    DeleteCustomerRows(s, {c.id})
  }

  /** `DELETE FROM customers`: the cascade empties the other two tables as well. */
  function DeleteAll(s: Store): (r: Store)
    ensures r.customers == map[]
    ensures Valid(s) ==> r.loans == map[] && r.transactions == map[] && Valid(r)
    ensures r.customerSeq == s.customerSeq && r.loanSeq == s.loanSeq
  {
    DeleteCustomerRows(s, s.customers.Keys)
  }

  /** `SELECT * FROM customers WHERE id = :id`. */
  function GetCustomerById(s: Store, id: int): (r: Option<Customer>)
    ensures r.Some? <==> id in s.customers
    ensures r.Some? ==> r.value == s.customers[id]
  {
    if id in s.customers then Some(s.customers[id]) else None
  }

  /** `SELECT * FROM customers`: every row once, in scan order. */
  ghost function GetAllCustomers(s: Store): (r: seq<Customer>)
    requires Valid(s)
    ensures IsListing(r, s.customers, CustomerKey)
  {
    RowsAreListing(s.customers, CustomerKey);
    Rows(s.customers)
  }

  /** A customer with all of its loans, open and closed (`@Relation` on `customerId`). */
  datatype CustomerWithLoans = CustomerWithLoans(customer: Customer, loans: seq<Loan>)

  /** `getCustomerWithLoans`: nothing when the customer does not exist. */
  ghost function GetCustomerWithLoans(s: Store, id: int): (r: Option<CustomerWithLoans>)
    requires Valid(s)
    ensures r.Some? <==> id in s.customers
    ensures r.Some? ==> r.value.customer == s.customers[id]
    ensures r.Some? ==> IsListing(r.value.loans, Where(s.loans, LoanDao.OwnedBy(id)), LoanKey)
  {
    if id in s.customers then Some(CustomerWithLoans(s.customers[id], LoanDao.GetLoansForCustomer(s, id))) else None
  }

  // ---------------------------------------------------------------------
  // Aggregates over open loans
  // ---------------------------------------------------------------------

  /** A customer row with `SUM(currentBalance)` and `MIN(nextDueDate)` of its open loans. */
  datatype CustomerWithDebtStatus = CustomerWithDebtStatus(
    customer: Customer,
    totalRemainingDebt: Option<real>,
    earliestNextDueDate: Option<int>)

  function StatusKey(x: CustomerWithDebtStatus): int { x.customer.id }

  /** The loans the `LEFT JOIN ... AND l.isClosed = 0` pairs with the customer. */
  function OpenLoans(s: Store, customerId: int): set<int> {
    set id | id in s.loans && s.loans[id].customerId == customerId && !s.loans[id].isClosed
  }

  /**
   * The grouped row of one customer. `coalesce` says whether the query wraps
   * the sum in `COALESCE(.., 0.0)`; the minimum is never coalesced.
   */
  ghost function StatusOf(s: Store, c: Customer, coalesce: bool): (r: CustomerWithDebtStatus)
    ensures r.customer == c
    ensures r.earliestNextDueDate.None? <==> OpenLoans(s, c.id) == {}
    ensures r.earliestNextDueDate.Some? ==>
      && (exists id :: id in OpenLoans(s, c.id) && s.loans[id].nextDueDate == r.earliestNextDueDate.value)
      && (forall id :: id in OpenLoans(s, c.id) ==> r.earliestNextDueDate.value <= s.loans[id].nextDueDate)
    ensures r.totalRemainingDebt.None? <==> !coalesce && OpenLoans(s, c.id) == {}
    ensures OpenLoans(s, c.id) != {} ==> r.totalRemainingDebt == Some(Sum(s.loans, OpenLoans(s, c.id), Balance))
    ensures coalesce && OpenLoans(s, c.id) == {} ==> r.totalRemainingDebt == Some(0.0)
  {
    var open := OpenLoans(s, c.id);
    if open == {} then
      CustomerWithDebtStatus(c, if coalesce then Some(0.0) else None, None)
    else
      CustomerWithDebtStatus(c, Some(Sum(s.loans, open, Balance)), Some(EarliestDue(s.loans, open)))
  }

  /** `MIN(nextDueDate)` over a non-empty set of loans. */
  ghost function EarliestDue(loans: map<int, Loan>, ids: set<int>): (r: int)
    requires ids != {} && ids <= loans.Keys
    ensures exists id :: id in ids && loans[id].nextDueDate == r
    ensures forall id :: id in ids ==> r <= loans[id].nextDueDate
  {
    var k := ArgMin(loans, ids, DueDate);
    loans[k].nextDueDate
  }

  /** The result of `GROUP BY c.id` before ordering: one row per customer. */
  ghost function StatusTable(s: Store, coalesce: bool): (r: map<int, CustomerWithDebtStatus>)
    ensures r.Keys == s.customers.Keys
    ensures forall id :: id in r ==> r[id] == StatusOf(s, s.customers[id], coalesce)
  {
    map id | id in s.customers :: StatusOf(s, s.customers[id], coalesce)
  }

  /** The grouped rows in scan order. */
  ghost function StatusRows(s: Store, coalesce: bool): (r: seq<CustomerWithDebtStatus>)
    requires Valid(s)
    ensures IsListing(r, StatusTable(s, coalesce), StatusKey)
  {
    var t := StatusTable(s, coalesce);
    assert KeyedBy(t, StatusKey);
    RowsAreListing(t, StatusKey);
    Rows(t)
  }

  // ---------------------------------------------------------------------
  // Orderings (SQLite: NULL is smaller than every number)
  // ---------------------------------------------------------------------

  /** `ASC` on a nullable integer: NULL first. */
  function NullsFirstLe(a: Option<int>, b: Option<int>): bool {
    a.None? || (b.Some? && a.value <= b.value)
  }

  /** `DESC` on a nullable real: largest first, NULL last. */
  function DescNullsLastLe(a: Option<real>, b: Option<real>): bool {
    b.None? || (a.Some? && a.value >= b.value)
  }

  /** `ORDER BY earliestNextDueDate ASC, totalRemainingDebt DESC`. */
  function UrgencyLe(x: CustomerWithDebtStatus, y: CustomerWithDebtStatus): bool {
    if x.earliestNextDueDate != y.earliestNextDueDate then NullsFirstLe(x.earliestNextDueDate, y.earliestNextDueDate)
    else DescNullsLastLe(x.totalRemainingDebt, y.totalRemainingDebt)
  }

  /** `ORDER BY totalRemainingDebt DESC`. */
  function DebtLe(x: CustomerWithDebtStatus, y: CustomerWithDebtStatus): bool {
    DescNullsLastLe(x.totalRemainingDebt, y.totalRemainingDebt)
  }

  /** `ORDER BY c.name ASC` under the BINARY collation. */
  function NameLe(x: CustomerWithDebtStatus, y: CustomerWithDebtStatus): bool {
    BinaryLe(x.customer.name, y.customer.name)
  }

  lemma UrgencyIsPreorder()
    ensures TotalPreorder(UrgencyLe)
  {
    forall a, b, c | UrgencyLe(a, b) && UrgencyLe(b, c)
      ensures UrgencyLe(a, c)
    {
    }
  }

  lemma DebtIsPreorder()
    ensures TotalPreorder(DebtLe)
  {
  }

  lemma NameIsPreorder()
    ensures TotalPreorder(NameLe)
  {
    forall a, b ensures NameLe(a, b) || NameLe(b, a) {
      BinaryLeTotal(a.customer.name, b.customer.name);
    }
    forall a, b, c | NameLe(a, b) && NameLe(b, c) ensures NameLe(a, c) {
      BinaryLeTransitive(a.customer.name, b.customer.name, c.customer.name);
    }
  }

  // ---------------------------------------------------------------------
  // The four queries
  // ---------------------------------------------------------------------

  /**
   * `getCustomersSortedByUrgency`: every customer once with its uncoalesced
   * aggregates, soonest due first, customers without open loans before all.
   */
  ghost function GetCustomersSortedByUrgency(s: Store): (r: seq<CustomerWithDebtStatus>)
    requires Valid(s)
    ensures IsListing(r, StatusTable(s, false), StatusKey)
    ensures SortedBy(r, UrgencyLe)
  {
    UrgencyIsPreorder();
    var r := SortBy(StatusRows(s, false), UrgencyLe);
    PermutedListing(StatusRows(s, false), r, StatusTable(s, false), StatusKey);
    r
  }

  /** `getCustomersSortedByDebt`: every customer once, debt coalesced to 0.0, largest debt first. */
  ghost function GetCustomersSortedByDebt(s: Store): (r: seq<CustomerWithDebtStatus>)
    requires Valid(s)
    ensures IsListing(r, StatusTable(s, true), StatusKey)
    ensures forall i :: 0 <= i < |r| ==> r[i].totalRemainingDebt.Some?
    ensures forall i, j :: 0 <= i < j < |r| ==> r[i].totalRemainingDebt.value >= r[j].totalRemainingDebt.value
  {
    DebtIsPreorder();
    var r := SortBy(StatusRows(s, true), DebtLe);
    PermutedListing(StatusRows(s, true), r, StatusTable(s, true), StatusKey);
    r
  }

  /** `getCustomersSortedByName`: every customer once with its uncoalesced aggregates, by name. */
  ghost function GetCustomersSortedByName(s: Store): (r: seq<CustomerWithDebtStatus>)
    requires Valid(s)
    ensures IsListing(r, StatusTable(s, false), StatusKey)
    ensures forall i, j :: 0 <= i < j < |r| ==> BinaryLe(r[i].customer.name, r[j].customer.name)
  {
    NameIsPreorder();
    var r := SortBy(StatusRows(s, false), NameLe);
    PermutedListing(StatusRows(s, false), r, StatusTable(s, false), StatusKey);
    r
  }

  /** `c.name LIKE '%' || q || '%' OR c.phone LIKE '%' || q || '%'`. */
  predicate Matches(q: string, c: Customer) {
    Like(Contains(q), c.name) || Like(Contains(q), c.phone)
  }

  function MatchesQuery(q: string): CustomerWithDebtStatus -> bool {
    (x: CustomerWithDebtStatus) => Matches(q, x.customer)
  }

  /**
   * `searchCustomers(q)`: exactly the matching customers, each once, debt
   * coalesced to 0.0, by name.
   */
  ghost function SearchCustomers(s: Store, q: string): (r: seq<CustomerWithDebtStatus>)
    requires Valid(s)
    ensures IsListing(r, Where(StatusTable(s, true), MatchesQuery(q)), StatusKey)
    ensures forall i :: 0 <= i < |r| ==> Matches(q, r[i].customer) && r[i].totalRemainingDebt.Some?
    ensures forall i, j :: 0 <= i < j < |r| ==> BinaryLe(r[i].customer.name, r[j].customer.name)
  {
    var all := StatusRows(s, true);
    var hits := Filter(all, MatchesQuery(q));
    FilterListing(all, StatusTable(s, true), StatusKey, MatchesQuery(q));
    NameIsPreorder();
    var r := SortBy(hits, NameLe);
    PermutedListing(hits, r, Where(StatusTable(s, true), MatchesQuery(q)), StatusKey);
    r
  }

  // ---------------------------------------------------------------------
  // Properties of the queries
  // ---------------------------------------------------------------------

  /** A listing of the grouped rows holds each customer row exactly once. */
  lemma ListsEveryCustomerOnce(s: Store, coalesce: bool, r: seq<CustomerWithDebtStatus>)
    requires Valid(s)
    requires IsListing(r, StatusTable(s, coalesce), StatusKey)
    ensures forall i :: 0 <= i < |r| ==> r[i].customer.id in s.customers && r[i].customer == s.customers[r[i].customer.id]
    ensures forall id :: id in s.customers ==> exists i :: 0 <= i < |r| && r[i].customer == s.customers[id]
    ensures forall i, j :: 0 <= i < j < |r| ==> r[i].customer != r[j].customer
  {
    var t := StatusTable(s, coalesce);
    forall id | id in s.customers
      ensures exists i :: 0 <= i < |r| && r[i].customer == s.customers[id]
    {
      var i :| 0 <= i < |r| && StatusKey(r[i]) == id;
      assert r[i] == t[id];
    }
    forall i, j | 0 <= i < j < |r|
      ensures r[i].customer != r[j].customer
    {
      assert StatusKey(r[i]) != StatusKey(r[j]);
    }
  }

  /** In the urgency order, customers without open loans (NULL due date) precede all others. */
  lemma NoOpenLoansComeFirst(s: Store)
    requires Valid(s)
    ensures var r := GetCustomersSortedByUrgency(s);
      forall i, j :: 0 <= i < |r| && 0 <= j < |r| && OpenLoans(s, r[i].customer.id) == {} && OpenLoans(s, r[j].customer.id) != {} ==> i < j
  {
    var r := GetCustomersSortedByUrgency(s);
    forall i, j | 0 <= i < |r| && 0 <= j < |r| && OpenLoans(s, r[i].customer.id) == {} && OpenLoans(s, r[j].customer.id) != {}
      ensures i < j
    {
      NullDueFirst(s, r, i, j);
    }
  }

  /** The step behind `NoOpenLoansComeFirst`, for any sorted listing of the uncoalesced rows. */
  lemma NullDueFirst(s: Store, r: seq<CustomerWithDebtStatus>, i: int, j: int)
    requires IsListing(r, StatusTable(s, false), StatusKey) && SortedBy(r, UrgencyLe)
    requires 0 <= i < |r| && 0 <= j < |r|
    requires OpenLoans(s, r[i].customer.id) == {} && OpenLoans(s, r[j].customer.id) != {}
    ensures i < j
  {
    var t := StatusTable(s, false);
    var x := r[i];
    var y := r[j];
    assert x == t[StatusKey(x)];
    assert y == t[StatusKey(y)];
    assert x.earliestNextDueDate.None?;
    assert y.earliestNextDueDate.Some?;
    assert !UrgencyLe(y, x);
  }

  /** In the urgency order, due dates never decrease once they are present. */
  lemma UrgencyDueDatesAscend(s: Store)
    requires Valid(s)
    ensures var r := GetCustomersSortedByUrgency(s);
      forall i, j :: 0 <= i < j < |r| && r[i].earliestNextDueDate.Some? ==>
        r[j].earliestNextDueDate.Some? && r[i].earliestNextDueDate.value <= r[j].earliestNextDueDate.value
  {
    var r := GetCustomersSortedByUrgency(s);
    forall i, j | 0 <= i < j < |r| && r[i].earliestNextDueDate.Some?
      ensures r[j].earliestNextDueDate.Some? && r[i].earliestNextDueDate.value <= r[j].earliestNextDueDate.value
    {
      assert UrgencyLe(r[i], r[j]);
    }
  }

  /** With an equal due date the larger debt comes first, NULL debt last. */
  lemma UrgencyTiesByDebt(s: Store)
    requires Valid(s)
    ensures var r := GetCustomersSortedByUrgency(s);
      forall i, j :: 0 <= i < j < |r| && r[i].earliestNextDueDate == r[j].earliestNextDueDate ==>
        DescNullsLastLe(r[i].totalRemainingDebt, r[j].totalRemainingDebt)
  {
    var r := GetCustomersSortedByUrgency(s);
    forall i, j | 0 <= i < j < |r| && r[i].earliestNextDueDate == r[j].earliestNextDueDate
      ensures DescNullsLastLe(r[i].totalRemainingDebt, r[j].totalRemainingDebt)
    {
      assert UrgencyLe(r[i], r[j]);
    }
  }

  /** The empty query matches every customer, so search lists them all. */
  lemma EmptySearchListsEveryone(s: Store)
    requires Valid(s)
    ensures IsListing(SearchCustomers(s, ""), StatusTable(s, true), StatusKey)
  {
    var t := StatusTable(s, true);
    forall id | id in t ensures MatchesQuery("")(t[id]) {
      EmptyQueryMatchesAll(t[id].customer.name);
    }
    assert Where(t, MatchesQuery("")) == t;
  }

  /**
   * For a query without wildcards, a customer is found exactly when the
   * query occurs in its name or phone, ignoring ASCII case.
   */
  lemma SearchFindsSubstrings(s: Store, q: string, id: int)
    requires Valid(s) && NoWildcards(q) && id in s.customers
    ensures (exists i :: 0 <= i < |SearchCustomers(s, q)| && StatusKey(SearchCustomers(s, q)[i]) == id)
        <==> OccursIgnoringAsciiCase(q, s.customers[id].name) || OccursIgnoringAsciiCase(q, s.customers[id].phone)
  {
    var r := SearchCustomers(s, q);
    var hits := Where(StatusTable(s, true), MatchesQuery(q));
    SearchIsSubstringMatch(q, s.customers[id].name);
    SearchIsSubstringMatch(q, s.customers[id].phone);
    if exists i :: 0 <= i < |r| && StatusKey(r[i]) == id {
      var i :| 0 <= i < |r| && StatusKey(r[i]) == id;
      assert id in hits;
    }
    if Matches(q, s.customers[id]) {
      assert id in hits;
    }
  }
}

=== FILE: customer_detail_view_model.dfy ===
/**
 * `CustomerDetailViewModel`: its UI state, adding a loan, taking a
 * payment and clearing the snackbar. The WhatsApp preference is a
 * parameter; the current time and the new transaction's id are too.
 */
module CustomerDetailViewModel {
  import opened Wrappers
  import opened Entities
  import opened Database
  import LoanDao
  import CustomerDao
  import CollectionRepository
  import SmartPaymentDialog
  import AddLoanDialog

  datatype CustomerDetailUiState = CustomerDetailUiState(
    customerWithLoans: Option<CustomerDao.CustomerWithLoans>,
    isLoading: bool,
    snackbarMessage: Option<string>,
    defaultCollectionAmount: real)

  const DefaultCollectionAmount: real := 500.0

  /** The state before anything is loaded. */
  const InitialState: CustomerDetailUiState := CustomerDetailUiState(None, true, None, DefaultCollectionAmount)

  const PaymentSuccessful: string := "Payment successful"
  const PaymentFailed: string := "Payment failed"

  /** `clearSnackbar`: the message goes, nothing else changes. */
  function ClearSnackbar(st: CustomerDetailUiState): (r: CustomerDetailUiState)
    ensures r.snackbarMessage.None?
    ensures r.(snackbarMessage := st.snackbarMessage) == st
  {
    st.(snackbarMessage := None)
  }

  /**
   * `addLoan(itemName, price, downPayment)` for the screen's customer at
   * time `now`: an open weekly loan owing `price - downPayment`, first due
   * a week from now. Nothing bounds the down payment.
   */
  function AddLoan(s: Store, customerId: int, itemName: string, price: real, downPayment: real, now: int)
    : (r: Result<(Store, int), Exception>)
    ensures r.Failure? <==> customerId !in s.customers
    ensures r.Success? ==> r.value.1 in r.value.0.loans
    ensures r.Success? ==>
      var loan := r.value.0.loans[r.value.1];
      && loan.customerId == customerId && loan.itemName == itemName
      && loan.totalPrincipal == price && loan.downPayment == downPayment
      && loan.currentBalance == price - downPayment
      && loan.emiFrequency == WEEKLY && loan.nextDueDate == now + WeekMillis
      && !loan.isClosed
    ensures r.Success? ==> r.value.0.customers == s.customers
    ensures Valid(s) && r.Success? ==> Valid(r.value.0) && r.value.1 !in s.loans
    ensures Valid(s) && r.Success? ==>
      && r.value.0.transactions == s.transactions
      && r.value.0.loans.Keys == s.loans.Keys + {r.value.1}
      && forall id :: id in s.loans ==> r.value.0.loans[id] == s.loans[id]
  {
    LoanDao.InsertLoan(s, NewLoan(customerId, itemName, price, downPayment, price - downPayment, WEEKLY, now + 7 * 24 * 60 * 60 * 1000))
  }

  /** A down payment above the price stores an open loan with a negative balance. */
  lemma OverpaidLoanStaysOpen(s: Store, customerId: int, itemName: string, price: real, downPayment: real, now: int)
    requires customerId in s.customers && downPayment > price
    ensures AddLoan(s, customerId, itemName, price, downPayment, now).Success?
    ensures var r := AddLoan(s, customerId, itemName, price, downPayment, now).value;
      r.0.loans[r.1].currentBalance < 0.0 && !r.0.loans[r.1].isClosed
  {
  }

  /** The add-loan dialog wired to `addLoan`: what a confirmed dialog stores. */
  function ConfirmAddLoan(s: Store, customerId: int, itemName: string, price: Option<real>, downPayment: Option<real>, now: int)
    : (r: Option<Result<(Store, int), Exception>>)
    ensures r.Some? <==> AddLoanDialog.Confirm(itemName, price, downPayment).Some?
    ensures r.Some? && r.value.Success? ==> r.value.value.1 in r.value.value.0.loans
    ensures r.Some? && r.value.Success? ==>
      var loan := r.value.value.0.loans[r.value.value.1];
      && price.Some? && loan.totalPrincipal == price.value > 0.0
      && loan.currentBalance == price.value - downPayment.GetOr(0.0)
  {
    match AddLoanDialog.Confirm(itemName, price, downPayment)
    case None => None
    case Some(input) => Some(AddLoan(s, customerId, input.itemName, input.price, input.downPayment, now))
  }

  /** The receipt shared over WhatsApp: customer name, amount, item name. */
  datatype Receipt = Receipt(customerName: string, amount: real, itemName: string)

  /** What `processPayment` leaves behind: the UI state, the store, and the receipt event sent, if any. */
  datatype PaymentOutcome = PaymentOutcome(state: CustomerDetailUiState, store: Store, receipt: Option<Receipt>)

  /**
   * `processPayment(loanId, amount)`: settle through the repository; on
   * success say so and, with WhatsApp enabled, send a receipt when both
   * the loan and the screen's customer are at hand; on failure show the
   * exception's message or "Payment failed". The `try` also covers the
   * preference read, the loan read and the send after the payment is
   * stored: `lateFault` is an exception raised there, which replaces the
   * success message although the payment stays stored.
   */
  function ProcessPayment(st: CustomerDetailUiState, s: Store, loanId: int, amount: real,
                          now: int, uuid: string, whatsAppEnabled: bool, lateFault: Option<Exception>): (r: PaymentOutcome)
    ensures var paid := CollectionRepository.PayInstallment(s, loanId, amount, now, uuid);
      && r.store == (if paid.Success? then paid.value else s)
      && (paid.Success? && lateFault.None? ==> r.state.snackbarMessage == Some(PaymentSuccessful))
      && (paid.Failure? ==> r.state.snackbarMessage == Some(paid.error.message.GetOr(PaymentFailed)))
      && (paid.Success? && lateFault.Some? ==> r.state.snackbarMessage == Some(lateFault.value.message.GetOr(PaymentFailed)))
      && (r.receipt.Some? <==> paid.Success? && lateFault.None? && whatsAppEnabled && st.customerWithLoans.Some? && loanId in r.store.loans)
      && (r.receipt.Some? ==> r.receipt.value == Receipt(st.customerWithLoans.value.customer.name, amount, r.store.loans[loanId].itemName))
    ensures r.state.(snackbarMessage := st.snackbarMessage) == st
  {
    match CollectionRepository.PayInstallment(s, loanId, amount, now, uuid)
    case Failure(e) =>
      PaymentOutcome(st.(snackbarMessage := Some(e.message.GetOr(PaymentFailed))), s, None)
    case Success(next) =>
      var shown := st.(snackbarMessage := Some(PaymentSuccessful));
      match lateFault
      case Some(e) => PaymentOutcome(shown.(snackbarMessage := Some(e.message.GetOr(PaymentFailed))), next, None)
      case None =>
        var receipt :=
          if !whatsAppEnabled then None
          else
            match (LoanDao.GetLoanById(next, loanId), shown.customerWithLoans)
            case (Some(loan), Some(cwl)) => Some(Receipt(cwl.customer.name, amount, loan.itemName))
            case _ => None;
        PaymentOutcome(shown, next, receipt)
  }

  /**
   * The success message is never an error message of settlement: it
   * appears only when the payment went through, and always does then
   * unless a later step raised.
   */
  lemma SuccessMessageMeansPaid(st: CustomerDetailUiState, s: Store, loanId: int, amount: real, now: int, uuid: string,
                                whatsAppEnabled: bool, lateFault: Option<Exception>)
    ensures var r := ProcessPayment(st, s, loanId, amount, now, uuid, whatsAppEnabled, lateFault);
      r.state.snackbarMessage == Some(PaymentSuccessful) ==> CollectionRepository.PayInstallment(s, loanId, amount, now, uuid).Success?
    ensures lateFault.None? ==>
      (ProcessPayment(st, s, loanId, amount, now, uuid, whatsAppEnabled, lateFault).state.snackbarMessage == Some(PaymentSuccessful)
       <==> CollectionRepository.PayInstallment(s, loanId, amount, now, uuid).Success?)
  {
    var paid := CollectionRepository.PayInstallment(s, loanId, amount, now, uuid);
    if paid.Failure? {
      assert paid.error == CollectionRepository.LoanNotFound || paid.error == CollectionRepository.AmountExceedsBalance
          || paid.error == ForeignKeyFailure;
    }
  }

  /**
   * A failure after the payment is stored shows an error while the store
   * keeps the payment: with a message-less exception the user reads
   * "Payment failed" for a payment that went through.
   */
  lemma LateFaultHidesPayment(st: CustomerDetailUiState, s: Store, loanId: int, amount: real, now: int, uuid: string,
                              whatsAppEnabled: bool)
    requires CollectionRepository.PayInstallment(s, loanId, amount, now, uuid).Success?
    ensures var r := ProcessPayment(st, s, loanId, amount, now, uuid, whatsAppEnabled, Some(Exception(None)));
      && r.store == CollectionRepository.PayInstallment(s, loanId, amount, now, uuid).value
      && r.state.snackbarMessage == Some(PaymentFailed)
      && r.receipt.None?
  {
  }

  /**
   * The payment dialog wired to `processPayment`: the dialog lets through
   * only positive amounts and settlement only amounts up to the balance,
   * so a payment that goes through paid `0 < amount <= currentBalance`.
   */
  lemma PaidAmountsAreInRange(st: CustomerDetailUiState, s: Store, loanId: int, field: Option<real>,
                              now: int, uuid: string, whatsAppEnabled: bool)
    requires SmartPaymentDialog.Confirm(field).Some?
    requires var a := SmartPaymentDialog.Confirm(field).value;
      CollectionRepository.PayInstallment(s, loanId, a, now, uuid).Success?
    ensures loanId in s.loans
    ensures 0.0 < SmartPaymentDialog.Confirm(field).value <= s.loans[loanId].currentBalance
  {
  }

  /** Conversely, on a consistent store every amount in that range is accepted by both. */
  lemma InRangeAmountsArePaid(s: Store, loanId: int, a: real, now: int, uuid: string)
    requires Valid(s) && loanId in s.loans && 0.0 < a <= s.loans[loanId].currentBalance
    ensures SmartPaymentDialog.Confirm(Some(a)) == Some(a)
    ensures CollectionRepository.PayInstallment(s, loanId, a, now, uuid).Success?
  {
  }
}

=== FILE: database.dfy ===
/**
 * The Room database: three tables keyed by primary key, the AUTOINCREMENT
 * counters, and the foreign keys `loans.customerId -> customers.id` and
 * `transactions.loanId -> loans.loanId`, both ON DELETE CASCADE.
 */
module Database {
  import opened Wrappers
  import opened Entities
  import opened Collections

  /**
   * One snapshot of the database. `customerSeq` and `loanSeq` are the
   * `sqlite_sequence` counters: the largest id each table has ever used.
   */
  datatype Store = Store(
    customers: map<int, Customer>,
    loans: map<int, Loan>,
    transactions: map<string, Transaction>,
    customerSeq: int,
    loanSeq: int)

  const EmptyStore: Store := Store(map[], map[], map[], 0, 0)

  /** Every loan's customer exists. */
  ghost predicate LoansHaveCustomers(s: Store) {
    forall id :: id in s.loans ==> s.loans[id].customerId in s.customers
  }

  /** Every transaction's loan exists. */
  ghost predicate TransactionsHaveLoans(s: Store) {
    forall t :: t in s.transactions ==> s.transactions[t].loanId in s.loans
  }

  /**
   * What the schema guarantees of every committed state: rows are stored
   * under their own key, generated ids are never 0 and never above the
   * counters, and both foreign keys hold.
   */
  ghost predicate Valid(s: Store) {
    && KeyedBy(s.customers, CustomerKey)
    && KeyedBy(s.loans, LoanKey)
    && KeyedBy(s.transactions, TransactionKey)
    && 0 <= s.customerSeq && 0 <= s.loanSeq
    && (forall id :: id in s.customers ==> id != AutoId && id <= s.customerSeq)
    && (forall id :: id in s.loans ==> id != AutoId && id <= s.loanSeq)
    && LoansHaveCustomers(s)
    && TransactionsHaveLoans(s)
  }

  /** What SQLite throws when a write would break a foreign key. */
  const ForeignKeyFailure: Exception := Exception(Some("FOREIGN KEY constraint failed"))

  /** The id an insert stores a row under: a fresh one past the counter for `AutoId`. */
  function AssignedId(requested: int, counter: int): int {
    if requested == AutoId then counter + 1 else requested
  }

  /** The counter after storing a row under `id`. */
  function Bump(counter: int, id: int): int {
    if id > counter then id else counter
  }

  /** The transactions that do not belong to any of `loanIds`. */
  function TransactionsNotOf(loanIds: set<int>): Transaction -> bool {
    (t: Transaction) => t.loanId !in loanIds
  }

  /** The loans that do not belong to any of `customerIds`. */
  function LoansNotOf(customerIds: set<int>): Loan -> bool {
    (l: Loan) => l.customerId !in customerIds
  }

  /** Deletes the loan rows `ids` and, by cascade, their transactions. */
  function DeleteLoanRows(s: Store, ids: set<int>): (r: Store)
    ensures r.loans.Keys == s.loans.Keys - ids
    ensures forall id :: id in r.loans ==> r.loans[id] == s.loans[id]
    ensures forall t :: t in r.transactions <==> t in s.transactions && s.transactions[t].loanId !in ids * s.loans.Keys
    ensures forall t :: t in r.transactions ==> r.transactions[t] == s.transactions[t]
    ensures r.customers == s.customers && r.customerSeq == s.customerSeq && r.loanSeq == s.loanSeq
    ensures Valid(s) ==> Valid(r)
  {
    var gone := ids * s.loans.Keys;
    s.(loans := s.loans - ids, transactions := Where(s.transactions, TransactionsNotOf(gone)))
  }

  /** Deletes the customer rows `ids` and, by cascade, their loans and those loans' transactions. */
  function DeleteCustomerRows(s: Store, ids: set<int>): (r: Store)
    ensures r.customers.Keys == s.customers.Keys - ids
    ensures forall id :: id in r.customers ==> r.customers[id] == s.customers[id]
    ensures forall id :: id in r.loans <==> id in s.loans && s.loans[id].customerId !in ids * s.customers.Keys
    ensures forall id :: id in r.loans ==> r.loans[id] == s.loans[id]
    ensures forall t :: t in r.transactions ==> t in s.transactions && r.transactions[t] == s.transactions[t]
    ensures forall t :: t in s.transactions && s.transactions[t].loanId in r.loans ==> t in r.transactions
    ensures Valid(s) ==> forall t :: t in r.transactions <==> t in s.transactions && s.transactions[t].loanId in r.loans
    ensures r.customerSeq == s.customerSeq && r.loanSeq == s.loanSeq
    ensures Valid(s) ==> Valid(r)
  {
    var gone := ids * s.customers.Keys;
    var doomed := s.loans.Keys - Where(s.loans, LoansNotOf(gone)).Keys;
    DeleteLoanRows(s, doomed).(customers := s.customers - ids)
  }

  /** No row asks for a generated id. */
  predicate ExplicitIds<V>(vs: seq<V>, key: V -> int) {
    forall i :: 0 <= i < |vs| ==> key(vs[i]) != AutoId
  }

  /** The counter after storing the rows `vs` in order under their own ids. */
  function BumpAll<V>(counter: int, vs: seq<V>, key: V -> int): (r: int)
    ensures counter <= r
    ensures forall i :: 0 <= i < |vs| ==> key(vs[i]) <= r
    decreases |vs|
  {
    if |vs| == 0 then counter
    else
      var n := |vs| - 1;
      assert forall i :: 0 <= i < n ==> vs[..n][i] == vs[i];
      Bump(BumpAll(counter, vs[..n], key), key(vs[n]))
  }

  /** A counter already past every id does not move. */
  lemma {:induction false} BumpAllFixed<V>(counter: int, vs: seq<V>, key: V -> int)
    requires forall i :: 0 <= i < |vs| ==> key(vs[i]) <= counter
    ensures BumpAll(counter, vs, key) == counter
    decreases |vs|
  {
    if |vs| > 0 {
      var n := |vs| - 1;
      assert forall i :: 0 <= i < n ==> vs[..n][i] == vs[i];
      BumpAllFixed(counter, vs[..n], key);
    }
  }
}


=== FILE: entities.dfy ===
/** The three Room entities of the ledger and their defaults. */
module Entities {

  /** The installment period a loan declares. */
  datatype EmiFrequency = WEEKLY | MONTHLY

  /** A row of `customers`; `frequency` is free text, "Weekly" by default. */
  datatype Customer = Customer(
    id: int,
    name: string,
    phone: string,
    address: string,
    frequency: string,
    createdAt: int)

  /** A row of `loans`; amounts are exact reals, dates milliseconds since the epoch. */
  datatype Loan = Loan(
    loanId: int,
    customerId: int,
    itemName: string,
    totalPrincipal: real,
    downPayment: real,
    currentBalance: real,
    emiFrequency: EmiFrequency,
    nextDueDate: int,
    isClosed: bool)

  /** A row of `transactions`, keyed by a random UUID string. */
  datatype Transaction = Transaction(
    transactionId: string,
    loanId: int,
    amountPaid: real,
    datePaid: int)

  /** An auto-generated primary key left at 0 asks the store for a fresh id. */
  const AutoId: int := 0

  /** One week in milliseconds, `7 * 24 * 60 * 60 * 1000`. */
  const WeekMillis: int := 7 * 24 * 60 * 60 * 1000

  const DefaultCustomerFrequency: string := "Weekly"

  function CustomerKey(c: Customer): int { c.id }
  function LoanKey(l: Loan): int { l.loanId }
  function TransactionKey(t: Transaction): string { t.transactionId }

  function Balance(l: Loan): real { l.currentBalance }
  function DueDate(l: Loan): int { l.nextDueDate }
  function AmountPaid(t: Transaction): real { t.amountPaid }

  /** `Customer(name = .., phone = .., address = .., frequency = ..)` created at `now`. */
  function NewCustomer(name: string, phone: string, address: string, frequency: string, now: int): Customer {
    Customer(AutoId, name, phone, address, frequency, now)
  }

  /** `Loan(..)` with the defaulted `loanId` and `isClosed`. */
  function NewLoan(customerId: int, itemName: string, totalPrincipal: real, downPayment: real,
                   currentBalance: real, emiFrequency: EmiFrequency, nextDueDate: int): Loan {
    Loan(AutoId, customerId, itemName, totalPrincipal, downPayment, currentBalance, emiFrequency, nextDueDate, false)
  }

  /** `Transaction(loanId = .., amountPaid = .., datePaid = ..)`; `uuid` is the defaulted random id. */
  function NewTransaction(uuid: string, loanId: int, amountPaid: real, datePaid: int): Transaction {
    Transaction(uuid, loanId, amountPaid, datePaid)
  }
}

=== FILE: home_view_model.dfy ===
/**
 * `HomeViewModel`: the home screen's state, its sort and search controls,
 * and the list and day total the screen shows for a store. The query that
 * picks the list is the view model's private search flow, which the text
 * field writes together with the visible `searchQuery`; debouncing only
 * delays that flow and is not modelled.
 */
module HomeViewModel {
  import opened Collections
  import opened Sorting
  import opened SqliteText
  import opened KotlinText
  import opened Database
  import opened CollectionRepository
  import CustomerDao

  datatype HomeUiState = HomeUiState(
    customers: seq<CustomerDao.CustomerWithDebtStatus>,
    isLoading: bool,
    sortOption: SortOption,
    totalCollectionToday: real,
    searchQuery: string,
    isSearchActive: bool)

  /** The visible state and the private search flow. */
  datatype Home = Home(ui: HomeUiState, query: string)

  /** A new view model: no customers yet, loading, URGENT order, no search. */
  const InitialHome: Home := Home(HomeUiState([], true, URGENT, 0.0, "", false), "")

  /** The text field and the flow that drives the list agree. */
  predicate Synced(h: Home) {
    h.ui.searchQuery == h.query
  }

  /** `updateSortOption`: only the sort choice changes. */
  function UpdateSortOption(h: Home, option: SortOption): (r: Home)
    ensures r.ui.sortOption == option
    ensures r.ui.(sortOption := h.ui.sortOption) == h.ui && r.query == h.query
    ensures Synced(h) ==> Synced(r)
  {
    h.(ui := h.ui.(sortOption := option))
  }

  /** `onSearchQueryChange`: the text field and the search flow both take the new text. */
  function OnSearchQueryChange(h: Home, query: string): (r: Home)
    ensures r.ui.searchQuery == query && r.query == query
    ensures Synced(r)
    ensures r.ui.(searchQuery := h.ui.searchQuery) == h.ui
  {
    Home(h.ui.(searchQuery := query), query)
  }

  /**
   * `toggleSearch`: the search bar opens or closes; closing it clears the
   * text and the search flow (the nested `onSearchQueryChange("")`), opening
   * it keeps them.
   */
  function ToggleSearch(h: Home): (r: Home)
    ensures r.ui.isSearchActive == !h.ui.isSearchActive
    ensures h.ui.isSearchActive ==> r.ui.searchQuery == "" && r.query == ""
    ensures !h.ui.isSearchActive ==> r.ui.searchQuery == h.ui.searchQuery && r.query == h.query
    ensures r.ui.(isSearchActive := h.ui.isSearchActive, searchQuery := h.ui.searchQuery) == h.ui
    ensures Synced(h) ==> Synced(r)
  {
    var newActive := !h.ui.isSearchActive;
    var cleared := if !newActive then OnSearchQueryChange(h, "") else h;
    cleared.(ui := cleared.ui.(isSearchActive := newActive))
  }

  /** Opening and closing the search bar restores its state with the text cleared. */
  lemma ToggleTwiceClearsSearch(h: Home)
    ensures var r := ToggleSearch(ToggleSearch(h));
      r == Home(h.ui.(searchQuery := ""), "")
  {
  }

  /**
   * The list for a query and a sort choice: a blank query shows every
   * customer in the chosen order; any other query shows the customers whose
   * name or phone it matches, in name order whatever the sort choice.
   */
  ghost function CustomerList(s: Store, query: string, option: SortOption): (r: seq<CustomerDao.CustomerWithDebtStatus>)
    requires Valid(s)
    ensures IsBlank(query) ==>
      IsListing(r, CustomerDao.StatusTable(s, Coalesces(option)), CustomerDao.StatusKey) && SortedBy(r, OrderOf(option))
    ensures !IsBlank(query) ==>
      && IsListing(r, Where(CustomerDao.StatusTable(s, true), CustomerDao.MatchesQuery(query)), CustomerDao.StatusKey)
      && forall i, j :: 0 <= i < j < |r| ==> BinaryLe(r[i].customer.name, r[j].customer.name)
  {
    if IsBlank(query) then GetCustomersSorted(s, option) else CustomerDao.SearchCustomers(s, query)
  }

  /**
   * The screen once both collectors have delivered for store `s` on the day
   * `[startOfDay, endOfDay]`: the list for the current flow and sort choice,
   * loading finished, and the day's collection.
   */
  ghost function Refresh(h: Home, s: Store, startOfDay: int, endOfDay: int): (r: Home)
    requires Valid(s)
    ensures r.ui.customers == CustomerList(s, h.query, h.ui.sortOption)
    ensures !r.ui.isLoading
    ensures r.ui.totalCollectionToday == GetCollectedToday(s, startOfDay, endOfDay)
    ensures r.ui.(customers := h.ui.customers, isLoading := h.ui.isLoading, totalCollectionToday := h.ui.totalCollectionToday) == h.ui
    ensures r.query == h.query
  {
    h.(ui := h.ui.(customers := CustomerList(s, h.query, h.ui.sortOption), isLoading := false,
                   totalCollectionToday := GetCollectedToday(s, startOfDay, endOfDay)))
  }

  /** A fresh home screen, once loaded, lists every customer in URGENT order with their debt left null. */
  lemma InitialHomeShowsUrgentList(s: Store, startOfDay: int, endOfDay: int)
    requires Valid(s)
    ensures var r := Refresh(InitialHome, s, startOfDay, endOfDay).ui;
      && IsListing(r.customers, CustomerDao.StatusTable(s, false), CustomerDao.StatusKey)
      && SortedBy(r.customers, CustomerDao.UrgencyLe)
      && r.sortOption == URGENT && r.searchQuery == "" && !r.isSearchActive && !r.isLoading
  {
    assert IsBlank(InitialHome.query);
  }

  /** Closing the search bar brings back every customer, in the chosen order. */
  lemma ClosingSearchListsEveryone(h: Home, s: Store, startOfDay: int, endOfDay: int)
    requires Valid(s) && h.ui.isSearchActive
    ensures var r := Refresh(ToggleSearch(h), s, startOfDay, endOfDay).ui;
      && IsListing(r.customers, CustomerDao.StatusTable(s, Coalesces(h.ui.sortOption)), CustomerDao.StatusKey)
      && SortedBy(r.customers, OrderOf(h.ui.sortOption))
  {
    var t := ToggleSearch(h);
    assert IsBlank(t.query);
  }

  /** A query of spaces is blank: it keeps the sorted list rather than searching for a space. */
  lemma SpacesKeepTheSortedList(s: Store, n: nat, option: SortOption)
    requires Valid(s) && n > 0
    ensures var q := seq(n, _ => ' ');
      CustomerList(s, q, option) == GetCustomersSorted(s, option)
  {
    var q := seq(n, _ => ' ');
    assert forall i :: 0 <= i < |q| ==> IsWhitespace(q[i]);
  }

  /**
   * Changing the sort choice leaves a search listing alone: the search
   * result does not depend on it.
   */
  lemma SortChoiceDoesNotAffectSearch(h: Home, s: Store, option: SortOption, startOfDay: int, endOfDay: int)
    requires Valid(s) && !IsBlank(h.query)
    ensures Refresh(UpdateSortOption(h, option), s, startOfDay, endOfDay).ui.customers
         == Refresh(h, s, startOfDay, endOfDay).ui.customers
  {
  }
}

=== FILE: loan_dao.dfy ===
/** `LoanDao`: the queries and writes on the `loans` table. */
module LoanDao {
  import opened Wrappers
  import opened Entities
  import opened Collections
  import opened Database

  /**
   * `@Insert(onConflict = REPLACE)`: the foreign key is checked first; a row
   * already under the id is deleted, with its transactions by cascade, and
   * the loan is stored under its id or, for `AutoId`, a fresh one.
   */
  function InsertLoan(s: Store, loan: Loan): (r: Result<(Store, int), Exception>)
    ensures r.Failure? <==> loan.customerId !in s.customers
    ensures r.Failure? ==> r.error == ForeignKeyFailure
    ensures r.Success? ==>
      && r.value.1 == AssignedId(loan.loanId, s.loanSeq)
      && r.value.0.loans == s.loans[r.value.1 := loan.(loanId := r.value.1)]
      && r.value.0.customers == s.customers
      && (r.value.1 !in s.loans ==> r.value.0.transactions == s.transactions)
      && (r.value.1 in s.loans ==> r.value.0.transactions == Where(s.transactions, TransactionsNotOf({r.value.1})))
      && r.value.0.loanSeq == Bump(s.loanSeq, r.value.1) && r.value.0.customerSeq == s.customerSeq
    ensures Valid(s) && r.Success? ==> Valid(r.value.0)
    ensures Valid(s) && r.Success? && loan.loanId == AutoId ==> r.value.1 !in s.loans && r.value.1 > 0
  {
    if loan.customerId !in s.customers then Failure(ForeignKeyFailure)
    else
      var id := AssignedId(loan.loanId, s.loanSeq);
      var cleared := DeleteLoanRows(s, {id});
      assert {id} * s.loans.Keys == (if id in s.loans then {id} else {});
      var stored := cleared.(loans := cleared.loans[id := loan.(loanId := id)], loanSeq := Bump(s.loanSeq, id));
      assert stored.loans == s.loans[id := loan.(loanId := id)];
      Success((stored, id))
  }

  /**
   * `@Update`: rewrites the row with the loan's id, if there is one; a row
   * whose new customer does not exist is refused by the foreign key.
   */
  function UpdateLoan(s: Store, loan: Loan): (r: Result<Store, Exception>)
    ensures loan.loanId !in s.loans ==> r == Success(s)
    ensures loan.loanId in s.loans ==> (r.Failure? <==> loan.customerId !in s.customers)
    ensures r.Failure? ==> r.error == ForeignKeyFailure
    ensures r.Success? ==> r.value.loans == (if loan.loanId in s.loans then s.loans[loan.loanId := loan] else s.loans)
    ensures r.Success? ==> r.value.customers == s.customers && r.value.transactions == s.transactions
    ensures r.Success? ==> r.value.customerSeq == s.customerSeq && r.value.loanSeq == s.loanSeq
    ensures Valid(s) && r.Success? ==> Valid(r.value)
  {
    if loan.loanId !in s.loans then Success(s)
    else if loan.customerId !in s.customers then Failure(ForeignKeyFailure)
    else Success(s.(loans := s.loans[loan.loanId := loan]))
  }

  /** `@Delete`: removes the row with the loan's id and, by cascade, its transactions. */
  function DeleteLoan(s: Store, loan: Loan): (r: Store)
    ensures r.loans.Keys == s.loans.Keys - {loan.loanId}
    ensures forall id :: id in r.loans ==> r.loans[id] == s.loans[id]
    ensures forall t :: t in r.transactions <==>
      t in s.transactions && (s.transactions[t].loanId != loan.loanId || loan.loanId !in s.loans)
    ensures forall t :: t in r.transactions ==> r.transactions[t] == s.transactions[t]
    ensures r.customers == s.customers
    ensures Valid(s) ==> Valid(r)
    ensures r.customerSeq == s.customerSeq && r.loanSeq == s.loanSeq
  {
    DeleteLoanRows(s, {loan.loanId})
  }

  /** `DELETE FROM loans`, which cascades to every transaction of a deleted loan. */
  function DeleteAll(s: Store): (r: Store)
    ensures r.loans == map[]
    ensures Valid(s) ==> r.transactions == map[] && Valid(r)
    ensures r.customers == s.customers
    ensures r.customerSeq == s.customerSeq && r.loanSeq == s.loanSeq
  {
    DeleteLoanRows(s, s.loans.Keys)
  }

  /**
   * `DELETE` leaves `sqlite_sequence` alone, so a loan inserted with a
   * generated id after a delete never takes the deleted loan's id.
   */
  lemma DeletedIdIsNotReused(s: Store, gone: Loan, next: Loan)
    requires Valid(s) && gone.loanId in s.loans
    requires next.loanId == AutoId && next.customerId in s.customers
    ensures InsertLoan(DeleteLoan(s, gone), next).Success?
    ensures InsertLoan(DeleteLoan(s, gone), next).value.1 > gone.loanId
  {
  }

  /** `SELECT * FROM loans WHERE loanId = :loanId`. */
  function GetLoanById(s: Store, loanId: int): (r: Option<Loan>)
    ensures r.Some? <==> loanId in s.loans
    ensures r.Some? ==> r.value == s.loans[loanId]
  {
    if loanId in s.loans then Some(s.loans[loanId]) else None
  }

  /** `SELECT * FROM loans`: every row once, in scan order. */
  ghost function GetAllLoans(s: Store): (r: seq<Loan>)
    requires Valid(s)
    ensures IsListing(r, s.loans, LoanKey)
  {
    RowsAreListing(s.loans, LoanKey);
    Rows(s.loans)
  }

  /** Whether a loan belongs to the customer `customerId`. */
  function OwnedBy(customerId: int): Loan -> bool {
    (l: Loan) => l.customerId == customerId
  }

  /** `SELECT * FROM loans WHERE customerId = :customerId`: that customer's loans, open and closed, each once. */
  ghost function GetLoansForCustomer(s: Store, customerId: int): (r: seq<Loan>)
    requires Valid(s)
    ensures IsListing(r, Where(s.loans, OwnedBy(customerId)), LoanKey)
    ensures forall i :: 0 <= i < |r| ==> r[i].customerId == customerId
  {
    RowsAreListing(s.loans, LoanKey);
    FilterListing(Rows(s.loans), s.loans, LoanKey, OwnedBy(customerId));
    Filter(Rows(s.loans), OwnedBy(customerId))
  }

  /** The WHERE clause of the overdue count: open and due at or before `timestamp`. */
  function OpenAndDueBy(timestamp: int): Loan -> bool {
    (l: Loan) => !l.isClosed && l.nextDueDate <= timestamp
  }

  /** The open loans due at or before `timestamp`. */
  function OverdueIds(s: Store, timestamp: int): set<int> {
    set id | id in s.loans && !s.loans[id].isClosed && s.loans[id].nextDueDate <= timestamp
  }

  /** `SELECT COUNT(*) FROM loans WHERE isClosed = 0 AND nextDueDate <= :timestamp`. */
  function CountOverdueLoans(s: Store, timestamp: int): (r: int)
    ensures r == |Where(s.loans, OpenAndDueBy(timestamp))|
    ensures 0 <= r <= |s.loans|
    ensures r == 0 <==> forall id :: id in s.loans ==> s.loans[id].isClosed || s.loans[id].nextDueDate > timestamp
  {
    var ids := OverdueIds(s, timestamp);
    assert ids <= s.loans.Keys;
    SubsetCardinality(ids, s.loans.Keys);
    assert |ids| == 0 ==> ids == {};
    assert ids == {} ==> forall id :: id in s.loans ==> id !in ids;
    assert ids == {} <== forall id :: id in s.loans ==> s.loans[id].isClosed || s.loans[id].nextDueDate > timestamp;
    assert Where(s.loans, OpenAndDueBy(timestamp)).Keys == ids;
    |ids|
  }

  /** The bound is inclusive and the count grows with it. */
  lemma OverdueCountGrowsWithTime(s: Store, t1: int, t2: int)
    requires t1 <= t2
    ensures CountOverdueLoans(s, t1) <= CountOverdueLoans(s, t2)
  {
    SubsetCardinality(OverdueIds(s, t1), OverdueIds(s, t2));
  }

  lemma {:induction false} SubsetCardinality<T>(a: set<T>, b: set<T>)
    requires a <= b
    ensures |a| <= |b|
    decreases b
  {
    if a != {} {
      var x :| x in a;
      SubsetCardinality(a - {x}, b - {x});
    }
  }
}

=== FILE: smart_payment_dialog.dfy ===
/**
 * The logic of `SmartPaymentDialog`: its amount field, the two stepper
 * buttons and the confirm guard. The text field is modelled by what
 * `toDoubleOrNull()` reads from it: `None` for empty or unparsable text.
 */
module SmartPaymentDialog {
  import opened Wrappers

  /** The step used when the configured default is not positive. */
  const FallbackStep: real := 500.0

  /** The amount field's initial text: the default when positive, otherwise empty. */
  function InitialAmount(defaultAmount: real): (r: Option<real>)
    ensures r.Some? <==> defaultAmount > 0.0
    ensures r.Some? ==> r.value == defaultAmount
  {
    if defaultAmount > 0.0 then Some(defaultAmount) else None
  }

  /** An integer-valued real. */
  predicate IsWhole(x: real) {
    x.Floor as real == x
  }

  /**
   * The value `String.format("%.0f", x)` writes: `x` rounded to a whole
   * number, halves away from zero (`RoundingMode.HALF_UP`).
   */
  function FormatWhole(x: real): (r: real)
    ensures IsWhole(r)
    ensures x >= 0.0 ==> r >= 0.0 && r - 0.5 <= x < r + 0.5
    ensures x < 0.0 ==> r <= 0.0 && r - 0.5 < x <= r + 0.5
  {
    var k := if x >= 0.0 then Floor(x + 0.5) else -Floor(-x + 0.5);
    assert (k as real).Floor == k;
    k as real
  }

  /** The largest integer not above `y`. */
  function Floor(y: real): (k: int)
    ensures k as real <= y < k as real + 1.0
  {
    y.Floor
  }

  /** The decrease button: step down by the default, never below 0, rounded. */
  function Decrease(amount: Option<real>, defaultAmount: real): (r: Option<real>)
    ensures r.Some? && IsWhole(r.value) && r.value >= 0.0
    ensures amount.GetOr(0.0) - defaultAmount <= 0.0 ==> r.value == 0.0
    ensures amount.GetOr(0.0) - defaultAmount > 0.0 ==>
      r.value - 0.5 <= amount.GetOr(0.0) - defaultAmount < r.value + 0.5
  {
    var current := amount.GetOr(0.0);
    var stepped := current - defaultAmount;
    var newAmount := if stepped < 0.0 then 0.0 else stepped;
    Some(FormatWhole(newAmount))
  }

  /** The increase button: step up by the default, or by 500 when it is not positive, rounded. */
  function Increase(amount: Option<real>, defaultAmount: real): (r: Option<real>)
    ensures r.Some? && IsWhole(r.value)
    ensures var target := amount.GetOr(0.0) + (if defaultAmount > 0.0 then defaultAmount else FallbackStep);
      target >= 0.0 ==> r.value >= 0.0 && r.value - 0.5 <= target < r.value + 0.5
    ensures var target := amount.GetOr(0.0) + (if defaultAmount > 0.0 then defaultAmount else FallbackStep);
      target < 0.0 ==> r.value <= 0.0 && r.value - 0.5 < target <= r.value + 0.5
  {
    var current := amount.GetOr(0.0);
    var base := if defaultAmount > 0.0 then defaultAmount else FallbackStep;
    Some(FormatWhole(current + base))
  }

  /**
   * The confirm button: the amount handed to `onConfirm`, if any. Only a
   * positive amount goes through; nothing compares it with the balance.
   */
  function Confirm(amount: Option<real>): (r: Option<real>)
    ensures r.Some? <==> amount.Some? && amount.value > 0.0
    ensures r.Some? ==> r.value == amount.value
  {
    var a := amount.GetOr(0.0);
    if a > 0.0 then Some(a) else None
  }

  /** After a decrease, confirming does nothing exactly when the stepped amount rounds to 0. */
  lemma DecreaseToZeroCannotConfirm(amount: Option<real>, defaultAmount: real)
    requires amount.GetOr(0.0) - defaultAmount < 0.5
    ensures Confirm(Decrease(amount, defaultAmount)).None?
  {
  }

  /**
   * Increasing from the initial field leaves an amount that can be
   * confirmed, unless the default is so small that twice it rounds to 0.
   */
  lemma IncreaseFromStartConfirms(defaultAmount: real)
    requires defaultAmount <= 0.0 || defaultAmount >= 0.25
    ensures Confirm(Increase(InitialAmount(defaultAmount), defaultAmount)).Some?
  {
  }
}

/** The confirm guard of `AddLoanDialog`. */
module AddLoanDialog {
  import opened Wrappers
  import opened KotlinText

  /** What `onConfirm` receives: item name, price and down payment. */
  datatype LoanInput = LoanInput(itemName: string, price: real, downPayment: real)

  /**
   * The add button: price and down payment read as 0.0 when unparsable;
   * a loan goes through only with a non-blank name and a positive price.
   * The down payment is not checked at all.
   */
  function Confirm(itemName: string, price: Option<real>, downPayment: Option<real>): (r: Option<LoanInput>)
    ensures r.Some? <==> !IsBlank(itemName) && price.Some? && price.value > 0.0
    ensures r.Some? ==> r.value == LoanInput(itemName, price.value, downPayment.GetOr(0.0))
  {
    var p := price.GetOr(0.0);
    var d := downPayment.GetOr(0.0);
    if !IsBlank(itemName) && p > 0.0 then Some(LoanInput(itemName, p, d)) else None
  }

  /** Any down payment, negative or above the price, passes the guard. */
  lemma AnyDownPaymentPasses(itemName: string, price: real, downPayment: Option<real>)
    requires !IsBlank(itemName) && price > 0.0
    ensures Confirm(itemName, Some(price), downPayment).Some?
    ensures Confirm(itemName, Some(price), downPayment).value.downPayment == downPayment.GetOr(0.0)
  {
  }
}

=== FILE: sorting.dfy ===
/** Ordering by a comparator, used for every `ORDER BY` of the model. */
module Sorting {

  /** `le` is total and transitive: a sort key that may have ties. */
  ghost predicate TotalPreorder<T(!new)>(le: (T, T) -> bool) {
    && (forall a, b :: le(a, b) || le(b, a))
    && (forall a, b, c :: le(a, b) && le(b, c) ==> le(a, c))
  }

  /** Every element is `le` every later element. */
  ghost predicate SortedBy<T>(s: seq<T>, le: (T, T) -> bool) {
    forall i, j :: 0 <= i < j < |s| ==> le(s[i], s[j])
  }

  /** Inserts `x` into a sorted sequence before the first element it is `le` to. */
  function Insert<T(!new)>(x: T, s: seq<T>, le: (T, T) -> bool): (r: seq<T>)
    requires TotalPreorder(le)
    requires SortedBy(s, le)
    ensures SortedBy(r, le)
    ensures multiset(r) == multiset(s) + multiset{x}
  {
    if |s| == 0 then [x]
    else if le(x, s[0]) then [x] + s
    else
      var rest := Insert(x, s[1..], le);
      InsertBehindHead(x, s, le, rest);
      [s[0]] + rest
  }

  /** The step of `Insert` that keeps the head in front. */
  lemma InsertBehindHead<T(!new)>(x: T, s: seq<T>, le: (T, T) -> bool, rest: seq<T>)
    requires TotalPreorder(le)
    requires |s| > 0 && SortedBy(s, le) && !le(x, s[0])
    requires SortedBy(rest, le) && multiset(rest) == multiset(s[1..]) + multiset{x}
    ensures SortedBy([s[0]] + rest, le)
    ensures multiset([s[0]] + rest) == multiset(s) + multiset{x}
  {
    assert s == [s[0]] + s[1..];
    forall y | y in rest
      ensures le(s[0], y)
    {
      assert y in multiset(rest);
      if y != x {
        assert y in multiset(s[1..]);
        var k :| 0 <= k < |s[1..]| && s[1..][k] == y;
        assert s[k + 1] == y;
      }
    }
    var r := [s[0]] + rest;
    forall i, j | 0 <= i < j < |r|
      ensures le(r[i], r[j])
    {
      if i > 0 {
        assert r[i] == rest[i - 1] && r[j] == rest[j - 1];
      } else {
        assert r[j] == rest[j - 1] && rest[j - 1] in rest;
      }
    }
  }

  /** Insertion sort: a sorted permutation of `s`. Ties keep no particular order. */
  function SortBy<T(!new)>(s: seq<T>, le: (T, T) -> bool): (r: seq<T>)
    requires TotalPreorder(le)
    ensures SortedBy(r, le)
    ensures multiset(r) == multiset(s)
  {
    if |s| == 0 then []
    else
      assert s == [s[0]] + s[1..];
      Insert(s[0], SortBy(s[1..], le), le)
  }
}

=== FILE: text.dfy ===
/**
 * String semantics of SQLite (the BINARY collation and the LIKE operator)
 * and of Kotlin (`isWhitespace`, `isBlank`). Strings are sequences of
 * Unicode scalar values.
 */
module SqliteText {

  /**
   * `a <= b` under SQLite's default BINARY collation: byte order of the UTF-8
   * encodings, which is code point order, a proper prefix sorting first.
   * Upper case sorts before lower case.
   */
  predicate BinaryLe(a: string, b: string)
    decreases |a|
  {
    |a| == 0 || (|b| > 0 && (a[0] < b[0] || (a[0] == b[0] && BinaryLe(a[1..], b[1..]))))
  }

  lemma {:induction false} BinaryLeTotal(a: string, b: string)
    ensures BinaryLe(a, b) || BinaryLe(b, a)
    decreases |a|
  {
    if |a| > 0 && |b| > 0 && a[0] == b[0] {
      BinaryLeTotal(a[1..], b[1..]);
    }
  }

  lemma {:induction false} BinaryLeTransitive(a: string, b: string, c: string)
    requires BinaryLe(a, b) && BinaryLe(b, c)
    ensures BinaryLe(a, c)
    decreases |a|
  {
    if |a| > 0 && a[0] == b[0] && b[0] == c[0] {
      BinaryLeTransitive(a[1..], b[1..], c[1..]);
    }
  }

  /** SQLite folds only the 26 ASCII letters when LIKE compares characters. */
  function AsciiLower(c: char): char {
    if 'A' <= c <= 'Z' then (c as int + 32) as char else c
  }

  /**
   * `s LIKE pattern` with no ESCAPE clause: `%` matches any run of characters,
   * `_` exactly one character, any other character itself up to ASCII case.
   */
  predicate Like(pattern: string, s: string)
    decreases |pattern| + |s|
  {
    if |pattern| == 0 then |s| == 0
    else if pattern[0] == '%' then Like(pattern[1..], s) || (|s| > 0 && Like(pattern, s[1..]))
    else if pattern[0] == '_' then |s| > 0 && Like(pattern[1..], s[1..])
    else |s| > 0 && AsciiLower(pattern[0]) == AsciiLower(s[0]) && Like(pattern[1..], s[1..])
  }

  /** The pattern `'%' || q || '%'` built by the customer search. */
  function Contains(q: string): string {
    "%" + q + "%"
  }

  /** The query text contains no LIKE wildcard. */
  predicate NoWildcards(q: string) {
    forall i :: 0 <= i < |q| ==> q[i] != '%' && q[i] != '_'
  }

  /** `a` and `b` are equal up to ASCII case. */
  predicate EqualsIgnoringAsciiCase(a: string, b: string) {
    |a| == |b| && forall i :: 0 <= i < |a| ==> AsciiLower(a[i]) == AsciiLower(b[i])
  }

  /** `q` occurs in `s` at position `i`, ignoring ASCII case. */
  predicate OccursAt(q: string, s: string, i: int) {
    0 <= i && i + |q| <= |s| && EqualsIgnoringAsciiCase(q, s[i..i + |q|])
  }

  /** `q` occurs in `s` at some position, ignoring ASCII case. */
  ghost predicate OccursIgnoringAsciiCase(q: string, s: string) {
    exists i :: OccursAt(q, s, i)
  }

  lemma {:induction false} PercentMatchesAnything(s: string)
    ensures Like("%", s)
    decreases |s|
  {
    if |s| > 0 {
      PercentMatchesAnything(s[1..]);
    }
  }

  /** A leading `%` may skip any prefix of the subject. */
  lemma {:induction false} LeadingPercent(r: string, s: string)
    ensures Like("%" + r, s) <==> exists i :: 0 <= i <= |s| && Like(r, s[i..])
    decreases |s|
  {
    var p := "%" + r;
    assert p[1..] == r;
    if |s| == 0 {
      assert s[0..] == s;
    } else {
      LeadingPercent(r, s[1..]);
      if Like(p, s) {
        if Like(r, s) {
          assert s[0..] == s;
        } else {
          var i :| 0 <= i <= |s[1..]| && Like(r, s[1..][i..]);
          assert s[1..][i..] == s[i + 1..];
        }
      }
      if exists i :: 0 <= i <= |s| && Like(r, s[i..]) {
        var i :| 0 <= i <= |s| && Like(r, s[i..]);
        if i == 0 {
          assert s[0..] == s;
        } else {
          assert s[1..][i - 1..] == s[i..];
        }
      }
    }
  }

  /** A wildcard-free text followed by `%` matches exactly the subjects it prefixes. */
  lemma {:induction false} LiteralThenPercent(q: string, s: string)
    requires NoWildcards(q)
    ensures Like(q + "%", s) <==> |q| <= |s| && EqualsIgnoringAsciiCase(q, s[..|q|])
    decreases |q|
  {
    var p := q + "%";
    if |q| == 0 {
      assert p == "%";
      PercentMatchesAnything(s);
    } else {
      assert p[0] == q[0] && p[1..] == q[1..] + "%";
      if |s| > 0 {
        LiteralThenPercent(q[1..], s[1..]);
      }
      if |s| > 0 && |q| <= |s| {
        assert s[1..][..|q| - 1] == s[..|q|][1..];
        if EqualsIgnoringAsciiCase(q, s[..|q|]) {
          assert forall i :: 0 <= i < |q| - 1 ==> q[1..][i] == q[i + 1] && s[..|q|][1..][i] == s[..|q|][i + 1];
        }
      }
    }
  }

  /**
   * Without wildcards, the search pattern matches exactly the subjects that
   * contain the query as a substring, ignoring ASCII case.
   */
  lemma SearchIsSubstringMatch(q: string, s: string)
    requires NoWildcards(q)
    ensures Like(Contains(q), s) <==> OccursIgnoringAsciiCase(q, s)
  {
    assert Contains(q) == "%" + (q + "%");
    LeadingPercent(q + "%", s);
    forall i | 0 <= i <= |s|
      ensures Like(q + "%", s[i..]) <==> OccursAt(q, s, i)
    {
      LiteralThenPercent(q, s[i..]);
      if i + |q| <= |s| {
        assert s[i..][..|q|] == s[i..i + |q|];
      }
    }
  }

  /** The empty query matches every subject. */
  lemma EmptyQueryMatchesAll(s: string)
    ensures Like(Contains(""), s)
  {
    assert Contains("") == "%%";
    PercentMatchesAnything(s);
  }

  /** The query `_` is a wildcard: it matches every non-empty subject and no empty one. */
  lemma UnderscoreQueryMatchesNonEmpty(s: string)
    ensures Like(Contains("_"), s) <==> |s| > 0
  {
    assert Contains("_") == "%" + "_%";
    LeadingPercent("_%", s);
    if |s| > 0 {
      assert s[0..] == s;
      PercentMatchesAnything(s[1..]);
    }
  }
}

module KotlinText {

  /**
   * Kotlin's `Char.isWhitespace()` on the JVM: `Character.isWhitespace` or
   * `Character.isSpaceChar`, i.e. the controls U+0009..U+000D, U+001C..U+001F
   * and the Unicode space, line and paragraph separators.
   */
  predicate IsWhitespace(c: char) {
    || c == ' ' || ('\t' <= c <= '\r') || ('\U{001C}' <= c <= '\U{001F}')
    || c == '\U{00A0}' || c == '\U{1680}' || ('\U{2000}' <= c <= '\U{200A}')
    || c == '\U{2028}' || c == '\U{2029}' || c == '\U{202F}' || c == '\U{205F}' || c == '\U{3000}'
  }

  /** Kotlin's `CharSequence.isBlank()`: empty or whitespace only. */
  predicate IsBlank(s: string) {
    forall i :: 0 <= i < |s| ==> IsWhitespace(s[i])
  }
}

=== FILE: transaction_dao.dfy ===
/** `TransactionDao`: the queries and writes on the `transactions` table. */
module TransactionDao {
  import opened Wrappers
  import opened Entities
  import opened Collections
  import opened Aggregates
  import opened Sorting
  import opened Database

  /**
   * `@Insert(onConflict = REPLACE)` keyed by `transactionId`: refused by the
   * foreign key when the loan does not exist, otherwise stored, replacing
   * any row with the same id.
   */
  function InsertTransaction(s: Store, t: Transaction): (r: Result<Store, Exception>)
    ensures r.Failure? <==> t.loanId !in s.loans
    ensures r.Failure? ==> r.error == ForeignKeyFailure
    ensures r.Success? ==> r.value.transactions == s.transactions[t.transactionId := t]
    ensures r.Success? ==> r.value.customers == s.customers && r.value.loans == s.loans
    ensures r.Success? ==> r.value.customerSeq == s.customerSeq && r.value.loanSeq == s.loanSeq
    ensures Valid(s) && r.Success? ==> Valid(r.value)
  {
    if t.loanId !in s.loans then Failure(ForeignKeyFailure)
    else Success(s.(transactions := s.transactions[t.transactionId := t]))
  }

  /** `@Delete`: removes the row with that id, if any. */
  function DeleteTransaction(s: Store, t: Transaction): (r: Store)
    ensures r.transactions.Keys == s.transactions.Keys - {t.transactionId}
    ensures forall k :: k in r.transactions ==> r.transactions[k] == s.transactions[k]
    ensures r.customers == s.customers && r.loans == s.loans
    ensures Valid(s) ==> Valid(r)
    ensures r.customerSeq == s.customerSeq && r.loanSeq == s.loanSeq
  {
    s.(transactions := s.transactions - {t.transactionId})
  }

  /** `DELETE FROM transactions`. */
  function DeleteAll(s: Store): (r: Store)
    ensures r.transactions == map[]
    ensures r.customers == s.customers && r.loans == s.loans
    ensures Valid(s) ==> Valid(r)
    ensures r.customerSeq == s.customerSeq && r.loanSeq == s.loanSeq
  {
    s.(transactions := map[])
  }

  /** `SELECT * FROM transactions`: every row once, in scan order. */
  ghost function GetAllTransactions(s: Store): (r: seq<Transaction>)
    requires Valid(s)
    ensures IsListing(r, s.transactions, TransactionKey)
  {
    RowsAreListing(s.transactions, TransactionKey);
    Rows(s.transactions)
  }

  function ForLoan(loanId: int): Transaction -> bool {
    (t: Transaction) => t.loanId == loanId
  }

  /** `ORDER BY datePaid DESC`, ties in no particular order. */
  function PaidNoEarlier(a: Transaction, b: Transaction): bool {
    a.datePaid >= b.datePaid
  }

  /**
   * `SELECT * FROM transactions WHERE loanId = :loanId ORDER BY datePaid DESC`:
   * exactly that loan's transactions, each once, latest first.
   */
  ghost function GetTransactionsForLoan(s: Store, loanId: int): (r: seq<Transaction>)
    requires Valid(s)
    ensures IsListing(r, Where(s.transactions, ForLoan(loanId)), TransactionKey)
    ensures forall i :: 0 <= i < |r| ==> r[i].loanId == loanId
    ensures forall i, j :: 0 <= i < j < |r| ==> r[i].datePaid >= r[j].datePaid
  {
    var mine := Filter(GetAllTransactions(s), ForLoan(loanId));
    FilterListing(GetAllTransactions(s), s.transactions, TransactionKey, ForLoan(loanId));
    assert TotalPreorder(PaidNoEarlier);
    var r := SortBy(mine, PaidNoEarlier);
    PermutedListing(mine, r, Where(s.transactions, ForLoan(loanId)), TransactionKey);
    r
  }

  /** The rows paid within `[start, end]`, both ends included (`BETWEEN`). */
  function PaidBetween(s: Store, start: int, end: int): set<string> {
    set k | k in s.transactions && start <= s.transactions[k].datePaid <= end
  }

  /**
   * `SELECT SUM(amountPaid) FROM transactions WHERE datePaid BETWEEN :start AND :end`:
   * null when no row qualifies, in particular whenever `start > end`.
   */
  ghost function GetTotalCollectionBetween(s: Store, start: int, end: int): (r: Option<real>)
    ensures r.None? <==> forall k :: k in s.transactions ==> s.transactions[k].datePaid < start || s.transactions[k].datePaid > end
    ensures start > end ==> r.None?
    ensures r.Some? ==> r.value == Sum(s.transactions, PaidBetween(s, start, end), AmountPaid)
  {
    var keys := PaidBetween(s, start, end);
    assert forall k :: k in s.transactions && start <= s.transactions[k].datePaid <= end ==> k in keys;
    assert keys != {} ==> exists k :: k in s.transactions && start <= s.transactions[k].datePaid <= end by {
      if keys != {} { var k := Pick(keys); assert k in s.transactions; }
    }
    if keys == {} then None else Some(Sum(s.transactions, keys, AmountPaid))
  }

  /** `SELECT SUM(amountPaid) FROM transactions`: null for an empty table. */
  ghost function GetTotalCollection(s: Store): (r: Option<real>)
    ensures r.None? <==> s.transactions == map[]
    ensures r.Some? ==> r.value == Sum(s.transactions, s.transactions.Keys, AmountPaid)
  {
    if s.transactions == map[] then None else Some(Sum(s.transactions, s.transactions.Keys, AmountPaid))
  }

  /** Collections over adjacent ranges add up: `[start, mid]` and `[mid + 1, end]` give `[start, end]`. */
  lemma CollectionRangesAdd(s: Store, start: int, mid: int, end: int)
    requires start <= mid < end
    ensures GetTotalCollectionBetween(s, start, end).GetOr(0.0)
         == GetTotalCollectionBetween(s, start, mid).GetOr(0.0) + GetTotalCollectionBetween(s, mid + 1, end).GetOr(0.0)
  {
    var a := PaidBetween(s, start, mid);
    var b := PaidBetween(s, mid + 1, end);
    assert PaidBetween(s, start, end) == a + b;
    SumUnion(s.transactions, a, b, AmountPaid);
  }
}

=== FILE: wrappers.dfy ===
/** Nullable values and thrown exceptions, as the Kotlin sources use them. */
module Wrappers {

  /** A Kotlin nullable value: `None` is `null`. */
  datatype Option<T> = None | Some(value: T) {

    /** The elvis operator `this ?: default`. */
    function GetOr(default: T): T {
      match this
      case Some(v) => v
      case None => default
    }
  }

  /** A call that either returns a value or throws an error. */
  datatype Result<T, E> = Success(value: T) | Failure(error: E)

  /** A thrown exception; only its (nullable) message is observable. */
  datatype Exception = Exception(message: Option<string>)
}
